=== FILE: README.md ===
# Roku remote control — a Dafny model

This project models the core of a browser-side remote control for Roku
streaming players:

- `Roku.Controller` turns key presses, channel launches and icon requests for
  one player into URLs of the player's External Control interface
  (`http://<host>:8060/keypress/Home`, …). It also fetches and caches the
  player's list of installed channels (`Roku.Channel`) through a lookup
  service.
- `Roku.Provider` finds a player on the local subnet by probing every host
  `192.168.1.100` … `192.168.1.255` at once. While it is looking, every host
  that answers with a channel listing is handed to its caller. That can be
  more than one host for a single request (see Findings).
- `Roku.App` is the page's entry point. It takes the player's host from the
  page's `host` query parameter (`getParams`) or from local storage, and
  otherwise asks the provider to discover one.

Layout, one module per file:

| file | module | models |
|---|---|---|
| `wrappers.dfy` | `Wrappers` | `Option` (`null`/`undefined` versus a value) |
| `strings.dfy` | `Strings` | the JavaScript string operations used: `indexOf`, one-character `split`, `join`, `String(n)`, `replace(/.*\./, '')` |
| `controller.dfy` | `RokuController` | `Roku.Controller` and `Roku.Channel`; the `getApps` cache as an event-driven client |
| `provider.dfy` | `RokuProvider` | `Roku.Provider`; discovery as a session driven by a trace of calls and probe answers |
| `params.dfy` | `Params` | `getParams`, together with an independent reference definition of its result |
| `app.dfy` | `RokuApp` | `Roku.App`: `init`, `reset`, `reset_`, `pressKey` |

Asynchrony is modelled as event traces. A request that has been sent is
recorded as pending. A response arrives as an event that names the request
it answers. Any order of arrival is one trace, so a property proved for
every trace holds under every interleaving.

The model follows the code where the code and its documentation disagree:

- An empty channel list `[]` is a truthy array in JavaScript. It is therefore
  cached by `getApps`, and it wins a discovery probe just as a non-empty
  list does.
- Discovery never stores the controller it found in `controller_`. Only
  `setController` does that.
- The winning probe clears `looking_` on the global object, not on the
  provider (see Findings).

## Model

| member | source | states |
|---|---|---|
| Strings.IndexOf | roku.js:91 | `indexOf` gives the first position where the word occurs, or -1; it is -1 exactly when the word occurs nowhere |
| Strings.CharIndex | app.js:58-60 | the first occurrence of a character: -1 exactly when it is absent, and no earlier position holds it |
| Strings.LastCharIndex | roku.js:122 | the last occurrence of a character: -1 exactly when it is absent, and no later position holds it |
| Strings.Split | app.js:58-60 | `split` on one character always gives at least one part |
| Strings.SplitPartsFree | app.js:58-60 | no part of a split holds the separator |
| Strings.JoinSplit | app.js:58-60 | joining the parts of a split with the separator gives the original string back |
| Strings.SplitJoin | roku.js:84 | splitting the `/`-join of separator-free segments gives the segments back |
| Strings.SplitCount | app.js:60 | a split has a second part exactly when the separator occurs |
| Strings.SplitFirstPart | app.js:60 | the first part is the longest separator-free prefix; it is shorter than the string exactly when the separator occurs |
| Strings.SplitSecondPart | app.js:60 | the second part is the text after the first separator, up to the next separator or the end |
| Strings.DigitsRoundTrip | roku.js:81 | reading back the decimal digits of a natural number gives the number |
| Strings.DecimalRoundTrip | roku.js:81 | `String(n)` for any integer, sign included, parses back to `n` |
| Strings.Decimal | roku.js:264 | a non-negative number renders as digits; a negative one as `-` then digits |
| Strings.LineEnd | roku.js:122 | the first line-terminator position: nothing before it is a terminator, and the character there is one |
| Strings.StripThroughLastDot | roku.js:122 | `replace(/.*\./, '')` leaves dot-free text unchanged and never lengthens a string |
| Strings.StripThroughLastDotOneLine | roku.js:122 | on a one-line host it keeps exactly the dot-free suffix after the last dot |
| RokuController.NewController | roku.js:9-18 | falsy host or port take the defaults `192.168.1.110` and 8060; otherwise the given ones are kept; no listing is cached |
| RokuController.AuthorityRoundTrip | roku.js:79-82 | `host:port` is read back as the host and port it was built from |
| RokuController.Url | roku.js:74-86 | `getUrl_` writes `http://`, the authority (`host`, plus `:port` when the port is truthy), `/`, then the path segments joined with `/` |
| RokuController.UrlRoundTrip | roku.js:74-86 | `getUrl_` loses nothing: host, port and path segments are recovered from the URL |
| RokuController.Query | roku.js:136-145 | the query is empty exactly when there are no pairs; otherwise it starts with `?` for the first pair and `&` for a later one |
| RokuController.QueryIsJoin | roku.js:136-145 | the query is `?` before the first pair and `&` before each later one, i.e. `?` plus the pairs joined with `&` |
| RokuController.SendCommand | roku.js:134-148 | without values the URL posted is `getUrl_(path)`; with values it is that URL, `?`, and the `key=escape(value)` pairs joined with `&` |
| RokuController.PairTexts | roku.js:141 | one `key=escape(value)` text per pair, in order; only the value is escaped |
| RokuController.PressKey | roku.js:43-45 | `pressKey` posts `getUrl_(['keypress', key])` with no query appended |
| RokuController.PressKeyTarget | roku.js:43-45 | a key press posts to this controller's host and port at path `keypress/<key>` |
| RokuController.LaunchChannel | roku.js:62-64 | `launchChannel_` posts exactly `getUrl_(['launch', id])` with no query, a missing id rendered as "" |
| RokuController.LaunchChannelTarget | roku.js:62-64 | on a host without `:` or `/` and an id without `/`, the launch URL reads back as this controller's host, port and path `launch/<id>` |
| RokuController.LaunchApp | roku.js:52-55 | launching an application posts exactly `getUrl_(['launch', id])` with the application's id (undefined as "") |
| RokuController.IconPath | roku.js:70-72 | the icon URL is exactly `getUrl_(['query', 'icon', id])` |
| RokuController.IconPathTarget | roku.js:70-72 | on a host without `:` or `/` and an id without `/`, the icon URL reads back as this controller's host, port and path `query/icon/<id>` |
| RokuController.PressKeyExample | roku.js:43-45 | pressing `Home` on the controller for `192.168.1.101` posts `http://192.168.1.101:8060/keypress/Home` |
| RokuController.DefaultPortText | roku.js:14 | the default port is written `8060` |
| RokuController.AppsFromXml | roku.js:89-107 | no list exactly when the body contains `Warning`; otherwise one channel per `app` element, in order, with id, version and name from its attributes |
| RokuController.Receive | roku.js:124-130 | a parsed list replaces the cached one and host and port are kept; a rejected body changes nothing |
| Strings.LastCharIndexBeforeFree | roku.js:122 | in `a + [c] + b` with `c` not in `b`, the last `c` is the one right after `a` |
| RokuController.LookupKey | roku.js:122 | `replace(/.*\./, '')` never lengthens the host and keeps a dot-free host whole |
| RokuController.LookupUrl | roku.js:122 | the lookup URL is the base URL, `apps.php?n=` and the lookup key; a dot-free host is sent whole |
| RokuController.LookupKeyAfterLastDot | roku.js:122 | the `n=` lookup key of a dotted host is the part after its last dot |
| RokuController.GetApps | roku.js:114-132 | with a cached list the callback gets it at once and no request is made; otherwise exactly one request to the lookup URL is added |
| RokuController.Respond | roku.js:124-131 | a response with a list caches it and calls back the caller of that request; a rejected body is dropped without a callback |
| RokuController.CachedListIsKept | roku.js:117-121 | once a list is cached, no trace of calls and responses removes it, issues another request or changes the host |
| RokuController.SecondCallUsesCache | roku.js:114-132 | two `getApps` calls around one good response make one request, and both callers get the same list |
| RokuProvider.NewProvider | roku.js:240-245 | falsy start and end bytes take 100 and 255; nothing is cached and the provider is not looking |
| RokuProvider.ProbeHostByte | roku.js:264 | the probed host `'192.168.1.' + hostByte` lies in the subnet, and the byte reads back from the text after the prefix |
| RokuProvider.ProbeLookupKey | roku.js:122 | the lookup key of probed host `192.168.1.<b>` is `b` itself |
| RokuProvider.MakeProbe | roku.js:263-265 | a probe for byte `b` uses a fresh controller for `192.168.1.<b>` on the default port |
| RokuProvider.ProbeUrl | roku.js:263-268 | a probe asks the lookup service for `apps.php?n=<b>` |
| RokuProvider.Probes | roku.js:258-260 | one probe per byte from start to end inclusive, in ascending order, and none when start exceeds end |
| RokuProvider.GetController | roku.js:251-261 | a cached controller is handed back at once with nothing probed; otherwise `looking_` is set and the whole range is probed |
| RokuProvider.ProbeComplete | roku.js:268-277 | as written: a probe's answer calls back its caller exactly when the answer is new, its body parses and the provider is looking; the provider itself never changes |
| RokuProvider.ProbeCompleteCorrected | roku.js:268-277 | intended: the winning answer clears the provider's `looking_` and caches the winning controller |
| RokuProvider.SetController | roku.js:284-286 | the given controller is cached; the flag, byte range, probes, answers, callbacks and global flag are unchanged |
| RokuProvider.Reset | roku.js:292-295 | the cache is cleared and `looking_` set; the byte range and history are kept |
| RokuProvider.AnswersLeaveProvider | roku.js:268-277 | as written, no sequence of probe answers changes `controller_` or `looking_` |
| RokuProvider.OnlySetCaches | roku.js:251-295 | in a trace without `setController`, the cached controller is the initial one or none |
| RokuProvider.EveryValidAnswerDelivers | roku.js:268-277 | as written, while looking, every fresh answer whose body parses calls back, so the number of callbacks equals the number of such answers |
| RokuProvider.DeliveriesComeFromValidAnswers | roku.js:263-278 | in every arrival order, every callback names the host of a probe that answered with a listing, and earlier callbacks are kept |
| RokuProvider.SingleValidCount | roku.js:268-277 | with distinct answers and only probe `w` parsing, exactly one answer counts when `w` answers, otherwise none |
| RokuProvider.SingleValidAnswerWins | roku.js:251-278 | when exactly one probed host answers with a listing, the caller is called back exactly once with that host, in every arrival order |
| RokuProvider.OnlyValidHostWins | roku.js:240-278 | probing `.100`–`.102` with only `.101` answering with a listing calls back once with `192.168.1.101` in all six orders |
| RokuProvider.CallbacksGoToCaller | roku.js:259-276 | every callback goes to the caller whose `getController` issued the probes |
| RokuProvider.EmptyListing | roku.js:91-106 | an empty body without `app` elements parses as the (truthy) empty channel list |
| RokuProvider.DuplicateWinnerWitness | roku.js:275 | as written, two hosts that both answer with a listing make a single `getController` call back twice |
| RokuProvider.CorrectedDeliversAtMostOnce | roku.js:268-277 | intended: one search calls back at most once, whatever answers arrive in whatever order |
| RokuProvider.RescanAfterDiscovery | roku.js:251-261 | as written, after a search has delivered, the next `getController` probes the whole range again |
| RokuProvider.CorrectedCachesWinner | roku.js:251-255 | intended: after a search has delivered, the next `getController` is answered from the cache without probing |
| Params.QueryText | app.js:57 | `substring(1)` drops exactly the first character (the `?`) and keeps the rest; an empty search gives "" |
| Params.PieceKey | app.js:60-61 | a piece's key is its longest `=`-free prefix |
| Params.PieceValue | app.js:60-62 | a piece has a value exactly when it holds `=` |
| Params.PieceValueText | app.js:60-62 | the value is the text after the first `=`, up to the next `=` or the end |
| Params.Promote | app.js:61-68 | while a key is undefined the occurrence is assigned; once it has a value the result is an array that keeps the earlier values in order and ends with the new one |
| Params.AddPiece | app.js:59-69 | one iteration adds the piece's key and leaves every other key as it was; it throws exactly when the key is new and one `{}` inherits, naming that key; after a throw nothing changes |
| Params.GetParams | app.js:52-71 | `getParams` throws only for a key `{}` inherits; otherwise no key is an inherited one, and every array it builds holds at least two values |
| Params.FromFirstDefined | app.js:61-62 | the occurrences from the first defined value on: a suffix of the occurrences that starts with a defined value, and everything before it is undefined |
| Params.SettledStep | app.js:61-68 | one more occurrence changes the reference value exactly as the loop's three branches do |
| Params.AddPieceMatches | app.js:59-69 | one loop iteration keeps the result equal to the reference |
| Params.AddPiecesMatchesReference | app.js:56-71 | for every list of pieces the loop throws exactly when some key is one `{}` inherits; otherwise it holds exactly the piece keys, each with its reference value |
| Params.OccurrencesOfAbsentKey | app.js:59-61 | a key no piece has occurs nowhere |
| Params.GetParamsMatchesReference | app.js:52-71 | `getParams` on a whole search string agrees with the reference |
| Params.TwoValuesLoop | app.js:63-65 | two pieces with the same key make the array of both values |
| Params.RepeatedKeyLoop | app.js:59-69 | pieces `a=x`, `a=y`, `b`, `a=z` give `a` all three values in order and `b` undefined |
| Params.SplitFour | app.js:58 | four `&`-free pieces joined with `&` split back into those pieces |
| Params.RepeatedKeyQuery | app.js:52-71 | `getParams` on `?a=x&a=y&b&a=z` gives `{a: [x, y, z], b: undefined}` |
| Params.PieceOf | app.js:60 | a piece `k=v` has key `k` and value `v` |
| Params.PieceWithoutValue | app.js:60-62 | a piece without `=` is all key, with an undefined value |
| RokuApp.NewApp | app.js:1-3 | a new app owns a fresh default provider: nothing cached, nothing probed, not looking |
| RokuApp.Delivered | app.js:41-42 | every controller delivered to the `initRoku_` callback is listed, and only those |
| RokuApp.DeliveredSnoc | app.js:41-42 | one more delivery appends its controller exactly when it went to that callback |
| RokuApp.DeliveredPrefix | app.js:41-42 | the list keeps delivery order: the list for an earlier point of the history is a prefix of the later one |
| RokuApp.PostedKeys | app.js:5-9 | every delivery to a key-press callback posts the `pressKey` URL of its key on the delivered controller |
| RokuApp.PostedKeysSnoc | app.js:5-9 | one more delivery posts a URL exactly when it went to a key-press callback |
| RokuApp.PostedKeysSound | app.js:5-9 | every posted URL is the key press of some delivery to a key-press callback |
| RokuApp.PostedKeysPrefix | app.js:5-9 | key presses are posted in delivery order |
| RokuApp.PressKeyOn | app.js:5-9 | with a cached controller the key press is posted to it at once and nothing is probed; otherwise the whole range is probed and nothing is posted yet |
| RokuApp.HostText | app.js:15-16 | a string `host` parameter is used as the host unchanged |
| RokuApp.ParamHost | app.js:15-16 | the `host` parameter is used exactly when it is present and truthy |
| RokuApp.Init | app.js:11-31 | `init` throws from `getParams` exactly when that throws, and only for a key `{}` inherits; it throws from `getApps` (roku.js:122, reached through app.js:27 and roku.js:193) exactly when the `host` parameter is an array, with the controller already cached and no GUI shown |
| RokuApp.Cache | app.js:25-26 | the controller for the chosen host, on the default port, is cached in the provider; nothing is probed or shown |
| RokuApp.Connect | app.js:24-27 | the controller for a text host is cached in the provider and its GUI set up, with nothing probed |
| RokuApp.Rediscover | app.js:39-44 | `reset_` asks the provider for a controller for `initRoku_` |
| RokuApp.ParamHostKept | app.js:15-16 | a host taken from the parameters is never empty, so the controller keeps it |
| RokuApp.HostTextOfArray | app.js:15-16 | an array `host` parameter (two or more values) renders as non-empty text |
| RokuApp.InitPrefersParam | app.js:14-27 | a truthy `host` parameter wins over local storage: a text host is connected to, and an array host is cached before `init` throws |
| RokuApp.ArrayHostInit | app.js:15-27 | whenever the parameters hold an array under `host`, `init` throws |
| RokuApp.RepeatedHostThrows | app.js:11-27 | a page opened with `?host=<x>&host=<y>` throws from `init` |
| RokuApp.TwoValueQuery | app.js:52-71 | `?k=x&k=y` parses to `{k: [x, y]}` |
| RokuApp.TwoValuePieces | app.js:57-58 | the query text of `?k=x&k=y` splits into its two pieces |
| RokuApp.SplitTwo | app.js:58 | two separator-free pieces joined by the separator split back into both |
| RokuApp.InitUsesStorage | app.js:20-27 | without a truthy parameter, a truthy stored host is connected to at once |
| RokuApp.InitDiscovers | app.js:24-30 | with no host anywhere, `init` asks the provider; a fresh app probes all 156 default hosts and shows nothing yet |
| RokuApp.HostParamConnects | app.js:11-27 | a page opened with `?host=<h>` connects to `h`, whatever local storage holds |
| RokuApp.HostQuery | app.js:52-71 | `?host=<h>` parses to the single parameter `host` with value `h` |
| RokuApp.PressKeyAfterParamHost | app.js:5-9 | after connecting to `h`, a key press posts one URL, to `h` at path `keypress/<key>` |
| RokuApp.ResetApp | app.js:34-37 | as written: the stored host becomes the text "null" and `reset_` asks the provider as it stands, its cache untouched |
| RokuApp.ResetAppCorrected | app.js:34-37 | intended: the stored host is removed, the cache cleared, and the whole range probed for `initRoku_`; no callback is made yet |
| RokuApp.ResetThenReloadUsesNullHost | app.js:35 | as written, after `reset` and a reload without parameters, `init` connects to a host named "null" |
| RokuApp.ResetCorrectedThenReloadDiscovers | app.js:34-37 | intended: after `reset` and a reload, `init` discovers a player |
| RokuApp.ResetReturnsCachedController | app.js:34-44 | as written, `reset` hands the cached controller straight back to `initRoku_` and probes nothing |
| RokuApp.ResetCorrectedProbes | app.js:34-44 | intended: `reset` clears the cache and the stored host and probes the whole range |

## Left out

- `postToUrl_` (roku.js:25-37) creates a hidden iframe and uses `Math.random`. A posted command is represented by the URL it would post. `iframe.js` is not part of this model.
- `ajax`, `log`, `getBaseUrl` and `Date` (roku.js:308-332) are abstracted. A request is a pending entry and its response an event. The base URL is a string parameter. Logging is dropped.
- A response with a status other than 200 never calls back (roku.js:326). It is modelled as a response event that never arrives.
- `DOMParser` is abstracted: an XML response is its raw text plus the attributes of its `app` elements in document order.
- JavaScript's `escape` is a function parameter of `SendCommand`. No command in the core passes values, so it is never applied there.
- `Roku.Gui` (roku.js:187-231) and `getOrAddElement` are DOM code. Setting up a GUI is recorded as the controller it was given (`RokuApp.Guis`). The `getApps` call it then makes is covered by `RokuController.GetApps` on its own and not chained into the app model. The one exception is the throw on an array host, which `RokuApp.Init` records.
- `getHost` and the `Roku.Channel` getters and `toString` are field reads. They are the datatype fields.
- `NewController`: the port is an integer. `Number(opt_port)` on a string, and the resulting `NaN`, are not modelled.
- `Decimal`: JavaScript writes numbers of magnitude 10^21 or more in exponent notation. Hosts, bytes and ports never come near that, and the model always writes plain digits.
- `Cache`: a `host` parameter given twice yields an array, which the controller stores as is. The model caches its comma-joined text, which is what `getUrl_` would render. Only the state at the throw matters, since `init` then stops.
- `Split`: the function's own contract states only that there is at least one part. That the parts are separator-free, and the round trips, are in `SplitPartsFree`, `JoinSplit` and `SplitJoin`.
- `HostText`: the contract states only the string case. For an array, `HostTextOfArray` states only that the text is non-empty; that it is the items joined with `,` is not stated.
- `StripThroughLastDot`: the exact result is stated for one-line strings only (`StripThroughLastDotOneLine`). For multi-line text the contract states only that the result never lengthens the string. Hosts are single lines.
- Local storage is one optional string, the `host` item. A page reload is a new app built from that item.
- Concrete query strings are proved through symbolic lemmas over their parts (`RepeatedKeyQuery`, `HostQuery`, `TwoValueQuery`) rather than evaluated literally.

## Findings

| source | as written | input that shows it | evidently intended | confidence | as-written member | corrected member |
|---|---|---|---|---|---|---|
| roku.js:275 | `this.looking_ = false` runs inside a callback invoked as a plain function, so `this` is the global object and the provider keeps looking | probe `.100`–`.101` with both hosts answering with a listing: the caller is called back twice | the first listing ends the search and later answers are ignored | high, not executed | `RokuProvider.ProbeComplete`, `RokuProvider.DuplicateWinnerWitness` | `RokuProvider.ProbeCompleteCorrected`, `RokuProvider.CorrectedDeliversAtMostOnce` |
| roku.js:251-278 | a discovered controller is never stored in `controller_` | `getController`, one answer with a listing, then `getController` again: the whole range is probed again | the winner is cached, as the `reset` documentation at roku.js:288-291 presumes; otherwise every key press (app.js:5-9 asks `getController` each time) probes the subnet again | medium, not executed | `RokuProvider.ProbeComplete`, `RokuProvider.RescanAfterDiscovery` | `RokuProvider.ProbeCompleteCorrected`, `RokuProvider.CorrectedCachesWinner` |
| app.js:35 | `localStorage['host'] = null` stores the text "null" | `reset`, then reload the page without parameters: `init` connects to host "null" | the stored host is removed and the reload discovers a player | high, not executed | `RokuApp.ResetApp`, `RokuApp.ResetThenReloadUsesNullHost` | `RokuApp.ResetAppCorrected`, `RokuApp.ResetCorrectedThenReloadDiscovers` |
| app.js:34-44 | `reset` never calls the provider's `reset`, so `reset_` gets the cached controller back | open with `?host=h`, then `reset`: `initRoku_` gets the controller for `h` again and nothing is probed | `reset` looks for a new player | high, not executed | `RokuApp.ResetApp`, `RokuApp.ResetReturnsCachedController` | `RokuApp.ResetAppCorrected`, `RokuApp.ResetCorrectedProbes` |

=== FILE: app.dfy ===
/**
 `Roku.App` (app.js): the page's entry point. It owns one provider, reads
 the host to use from the page's `host` parameter or from local storage,
 and otherwise asks the provider to discover an appliance; `initRoku_`
 then sets up the GUI for the controller it was given.

 Local storage is one optional string, the stored `host` item. The Web
 Storage interface stores every value as a string, so the assignment
 `localStorage['host'] = null` in `reset` stores the four-character text
 "null", which a later `init` finds truthy and uses as a host. `reset` also
 never clears the provider's cached controller, so it hands back the same
 controller instead of looking for a new one. `ResetApp` models both as
 written; `ResetAppCorrected` removes the item and clears the cache.
 */
module RokuApp {
  import opened Wrappers
  import opened Strings
  import opened RokuController
  import opened RokuProvider
  import opened Params

  /** The callbacks the app hands to its provider. */
  datatype AppCallback = InitRoku | PressKeyCallback(key: string)

  /**
   The app: its provider with that provider's history, the `host` item of
   local storage (`None` when there is none), and the controllers whose GUI
   `init` set up directly, in order.
   */
  datatype App = App(session: Session<AppCallback>, storedHost: Option<string>, shown: seq<Controller>)

  /** What the stored text "null" is: the string written for a `null` host. */
  const NullText := "null"

  /** `new Roku.App()` on a page whose local storage holds `storedHost`. */
  function NewApp(storedHost: Option<string>): (a: App)
    ensures WellFormed(a.session) && a.session.probes == [] && a.session.delivered == []
    ensures a.session.provider.controller == None && !a.session.provider.looking
    ensures a.storedHost == storedHost && a.shown == []
  {
    App(NewSession(NewProvider(None, None)), storedHost, [])
  }

  /**
   Every controller whose GUI the app has set up: those `init` set up
   directly and those the provider delivered to the `initRoku_` callback.
   */
  function Guis(a: App): seq<Controller> {
    a.shown + Delivered(a.session.delivered, InitRoku)
  }

  /** The controllers in `ds` delivered to `caller`, in order. */
  function Delivered(ds: seq<Delivery<AppCallback>>, caller: AppCallback): (r: seq<Controller>)
    ensures |r| <= |ds|
    ensures forall c :: c in r ==> Delivery(caller, c) in ds
    ensures forall i :: 0 <= i < |ds| && ds[i].caller == caller ==> ds[i].controller in r
    decreases |ds|
  {
    if |ds| == 0 then []
    else
      var init := ds[..|ds| - 1];
      var rest := Delivered(init, caller);
      assert forall d :: d in init ==> d in ds;
      assert forall i :: 0 <= i < |init| ==> init[i] == ds[i];
      if ds[|ds| - 1].caller == caller then rest + [ds[|ds| - 1].controller] else rest
  }

  /** One more delivery appends its controller exactly when it went to `caller`. */
  lemma DeliveredSnoc(ds: seq<Delivery<AppCallback>>, d: Delivery<AppCallback>, caller: AppCallback)
    ensures Delivered(ds + [d], caller) == Delivered(ds, caller) + (if d.caller == caller then [d.controller] else [])
  {
    assert (ds + [d])[..|ds|] == ds;
  }

  /**
   Deliveries are listed in the order they were made: what was listed after
   the first `n` deliveries stays at the front of the list.
   */
  lemma {:induction false} DeliveredPrefix(ds: seq<Delivery<AppCallback>>, caller: AppCallback, n: nat)
    requires n <= |ds|
    ensures Delivered(ds[..n], caller) <= Delivered(ds, caller)
    decreases |ds| - n
  {
    if n < |ds| {
      DeliveredPrefix(ds, caller, n + 1);
      assert ds[..n + 1] == ds[..n] + [ds[n]];
      DeliveredSnoc(ds[..n], ds[n], caller);
    } else {
      assert ds[..n] == ds;
    }
  }

  /** Whether a parameter value is truthy: a non-empty string, or an array. */
  predicate Truthy(v: ParamValue) {
    (v.Str? && v.text != "") || v.Arr?
  }

  /**
   The text a parameter value gives when used as a host: the string itself,
   or for an array its items joined with `,` (`undefined` items as "").
   */
  function HostText(v: ParamValue): (h: string)
    ensures v.Str? ==> h == v.text
  {
    match v
    case Undefined => ""
    case Str(s) => s
    case Arr(items) => Join(seq(|items|, i requires 0 <= i < |items| => AttrText(items[i])), ",")
  }

  /** The host parameter `init` takes, when the parsed parameters hold a truthy one. */
  function ParamHost(params: map<string, ParamValue>): (h: Option<string>)
    ensures h.Some? <==> "host" in params && Truthy(params["host"])
  {
    if "host" in params && Truthy(params["host"]) then Some(HostText(params["host"])) else None
  }

  /**
   The outcome of `init`: the app afterwards; the `TypeError` `getParams`
   threw for a key; or the `TypeError` thrown when the `host` parameter is
   an array. In that last case `initRoku_` has already cached the controller
   and `Gui.init` calls `getApps`, whose `this.host_.replace` does not exist
   on an array, so no GUI is shown; `app` is the state at the throw.
   */
  datatype InitOutcome = Started(app: App) | Threw(key: string) | ArrayHostThrew(app: App)

  /** `reset_()`: asks the provider for a controller, to be handed to `initRoku_`. */
  function Rediscover(a: App, baseUrl: string): (b: App)
    ensures b.storedHost == a.storedHost && b.shown == a.shown
    ensures b.session == GetController(a.session, baseUrl, InitRoku)
  {
    a.(session := GetController(a.session, baseUrl, InitRoku))
  }

  /**
   `init()` on a page whose `location.search` is `search`: a truthy `host`
   parameter is used first, a truthy stored host second; the controller
   for the chosen host is cached in the provider and its GUI set up at
   once. Without a host the provider is asked to discover one.
   */
  function Init(a: App, search: string, baseUrl: string): (r: InitOutcome)
    ensures r.Threw? <==> GetParams(search).PushOnNonArray?
    ensures r.Threw? ==> r.key in InheritedKeys
    ensures r.ArrayHostThrew? <==>
              GetParams(search).Parsed? && "host" in GetParams(search).params
              && GetParams(search).params["host"].Arr?
    ensures r.ArrayHostThrew? ==>
              r.app.shown == a.shown && r.app.session.probes == a.session.probes
              && r.app.session.delivered == a.session.delivered
              && r.app.session.provider.controller.Some?
  {
    GetParamsMatchesReference(search);
    match GetParams(search)
    case PushOnNonArray(k) => Threw(k)
    case Parsed(params) =>
      if ParamHost(params).Some? then
        var v := params["host"];
        if v.Arr? then ArrayHostThrew(Cache(a, HostText(v)))
        else Started(Connect(a, v.text))
      else if a.storedHost.Some? && a.storedHost.value != "" then Started(Connect(a, a.storedHost.value))
      else Started(Rediscover(a, baseUrl))
  }

  /**
   `new Roku.Controller(host)` followed by `setController`: the controller
   for `h` (default port) is cached in the provider, with nothing probed.
   */
  function Cache(a: App, h: string): (b: App)
    ensures b.session.provider.controller == Some(NewController(Some(h), None))
    ensures b.session.probes == a.session.probes && b.session.delivered == a.session.delivered
    ensures b.shown == a.shown && b.storedHost == a.storedHost
  {
    a.(session := SetController(a.session, NewController(Some(h), None)))
  }

  /**
   The `host` branch of `init` for a text host: the controller is cached
   and `initRoku_` sets up its GUI.
   */
  function Connect(a: App, h: string): (b: App)
    ensures b.session.provider.controller == Some(NewController(Some(h), None))
    ensures b.session.probes == a.session.probes && b.session.delivered == a.session.delivered
    ensures b.shown == a.shown + [NewController(Some(h), None)] && b.storedHost == a.storedHost
  {
    var b := Cache(a, h);
    b.(shown := b.shown + [NewController(Some(h), None)])
  }

  /**
   As written, `reset()`: stores the text "null" as the host, then
   `reset_()` asks the provider as it stands, its cache untouched.
   */
  function ResetApp(a: App, baseUrl: string): (b: App)
    ensures b.storedHost == Some(NullText) && b.shown == a.shown
    ensures b.session == GetController(a.session, baseUrl, InitRoku)
  {
    Rediscover(a.(storedHost := Some(NullText)), baseUrl)
  }

  /**
   The evidently intended `reset()`: removes the stored host, forgets the
   provider's cached controller, and looks for a controller afresh.
   */
  function ResetAppCorrected(a: App, baseUrl: string): (b: App)
    ensures b.storedHost == None && b.shown == a.shown
    ensures b.session.provider.controller == None && b.session.provider.looking
    ensures b.session.probes ==
              a.session.probes + Probes(a.session.provider.startByte, a.session.provider.endByte, baseUrl, InitRoku)
    ensures b.session.delivered == a.session.delivered
  {
    Rediscover(a.(storedHost := None, session := RokuProvider.Reset(a.session)), baseUrl)
  }

  /**
   `pressKey(key)`: asks the provider for a controller to press `key` on.
   With a cached controller the key is posted to it at once; otherwise the
   whole range is probed and nothing is posted yet.
   */
  function PressKeyOn(a: App, baseUrl: string, key: string): (b: App)
    ensures b.storedHost == a.storedHost && b.shown == a.shown
    ensures a.session.provider.controller.Some? ==>
              && b.session.probes == a.session.probes
              && PostedKeys(b.session.delivered)
                 == PostedKeys(a.session.delivered) + [PressKey(a.session.provider.controller.value, key)]
    ensures a.session.provider.controller.None? ==>
              && b.session.provider.looking
              && b.session.probes == a.session.probes
                   + Probes(a.session.provider.startByte, a.session.provider.endByte, baseUrl, PressKeyCallback(key))
              && PostedKeys(b.session.delivered) == PostedKeys(a.session.delivered)
  {
    var b := a.(session := GetController(a.session, baseUrl, PressKeyCallback(key)));
    assert a.session.provider.controller.Some? ==>
             PostedKeys(b.session.delivered)
             == PostedKeys(a.session.delivered) + [PressKey(a.session.provider.controller.value, key)] by {
      if a.session.provider.controller.Some? {
        PostedKeysSnoc(a.session.delivered, Delivery(PressKeyCallback(key), a.session.provider.controller.value));
      }
    }
    assert a.session.provider.controller.None? ==> PostedKeys(b.session.delivered) == PostedKeys(a.session.delivered);
    b
  }

  /** The key-press URLs posted so far: one per controller delivered to a key-press callback. */
  function PostedKeys(ds: seq<Delivery<AppCallback>>): (r: seq<string>)
    ensures |r| <= |ds|
    ensures forall i :: 0 <= i < |ds| && ds[i].caller.PressKeyCallback? ==>
              PressKey(ds[i].controller, ds[i].caller.key) in r
    decreases |ds|
  {
    if |ds| == 0 then []
    else
      var init := ds[..|ds| - 1];
      var rest := PostedKeys(init);
      var d := ds[|ds| - 1];
      assert forall i :: 0 <= i < |init| ==> init[i] == ds[i];
      if d.caller.PressKeyCallback? then rest + [PressKey(d.controller, d.caller.key)] else rest
  }

  /** One more delivery posts its key exactly when it went to a key-press callback. */
  lemma PostedKeysSnoc(ds: seq<Delivery<AppCallback>>, d: Delivery<AppCallback>)
    ensures PostedKeys(ds + [d]) ==
              PostedKeys(ds) + (if d.caller.PressKeyCallback? then [PressKey(d.controller, d.caller.key)] else [])
  {
    assert (ds + [d])[..|ds|] == ds;
  }

  /** Every URL posted is the key press of some delivery to a key-press callback. */
  lemma {:induction false} PostedKeysSound(ds: seq<Delivery<AppCallback>>, j: nat)
    requires j < |PostedKeys(ds)|
    ensures exists i :: 0 <= i < |ds| && ds[i].caller.PressKeyCallback?
                        && PostedKeys(ds)[j] == PressKey(ds[i].controller, ds[i].caller.key)
    decreases |ds|
  {
    var init := ds[..|ds| - 1];
    var d := ds[|ds| - 1];
    PostedKeysSnoc(init, d);
    assert init + [d] == ds;
    if j < |PostedKeys(init)| {
      PostedKeysSound(init, j);
      var i :| 0 <= i < |init| && init[i].caller.PressKeyCallback?
               && PostedKeys(init)[j] == PressKey(init[i].controller, init[i].caller.key);
      assert init[i] == ds[i];
    } else {
      assert PostedKeys(ds)[j] == PressKey(d.controller, d.caller.key);
    }
  }

  /** Key presses are posted in the order their controllers were delivered. */
  lemma {:induction false} PostedKeysPrefix(ds: seq<Delivery<AppCallback>>, n: nat)
    requires n <= |ds|
    ensures PostedKeys(ds[..n]) <= PostedKeys(ds)
    decreases |ds| - n
  {
    if n < |ds| {
      PostedKeysPrefix(ds, n + 1);
      assert ds[..n + 1] == ds[..n] + [ds[n]];
      PostedKeysSnoc(ds[..n], ds[n]);
    } else {
      assert ds[..n] == ds;
    }
  }

  // Properties of `init`.

  /**
   A truthy `host` parameter wins over local storage: a text host is
   connected to at once, and an array host is cached before `init` throws.
   */
  lemma InitPrefersParam(a: App, search: string, baseUrl: string, v: ParamValue)
    requires GetParams(search).Parsed? && ParamHost(GetParams(search).params).Some?
    requires v == GetParams(search).params["host"]
    ensures v.Str? ==> Init(a, search, baseUrl) == Started(Connect(a, v.text))
    ensures v.Arr? ==> Init(a, search, baseUrl) == ArrayHostThrew(Cache(a, HostText(v)))
  {
  }

  /**
   A page opened with `?host=<x>&host=<y>` throws from `init`: the two
   values make the parameter an array.
   */
  lemma RepeatedHostThrows(a: App, x: string, y: string, baseUrl: string)
    requires '&' !in x && '=' !in x && '&' !in y && '=' !in y
    ensures Init(a, "?host=" + x + "&host=" + y, baseUrl).ArrayHostThrew?
  {
    var search := "?host=" + x + "&host=" + y;
    assert '&' !in "host" && '=' !in "host" && "host" !in InheritedKeys;
    TwoValueQuery("host", x, y);
    SearchSpelling(x, y);
    ArrayHostInit(a, search, baseUrl);
  }

  lemma SearchSpelling(x: string, y: string)
    ensures "?host=" + x + "&host=" + y == "?" + "host" + "=" + x + "&" + "host" + "=" + y
  {
    var q, amp := "?host=", "&host=";
    assert q == "?" + "host" + "=";
    assert amp == "&" + "host" + "=";
  }

  /** Whenever the parameters hold an array under `host`, whatever else they hold, `init` throws. */
  lemma ArrayHostInit(a: App, search: string, baseUrl: string)
    requires GetParams(search).Parsed? && "host" in GetParams(search).params
    requires GetParams(search).params["host"].Arr?
    ensures Init(a, search, baseUrl).ArrayHostThrew?
  {
  }

  /** `?k=x&k=y` parses to the array `[x, y]` under `k`. */
  lemma TwoValueQuery(k: string, x: string, y: string)
    requires '&' !in k && '=' !in k && '&' !in x && '=' !in x && '&' !in y && '=' !in y
    requires k !in InheritedKeys
    ensures GetParams("?" + k + "=" + x + "&" + k + "=" + y) == Parsed(map[k := Arr([Some(x), Some(y)])])
  {
    TwoValuePieces(k, x, y);
    PieceOf(k, x);
    PieceOf(k, y);
    TwoValuesLoop(k + "=" + x, k + "=" + y, k, x, y, InheritedKeys);
  }

  /** The query text of `?k=x&k=y` splits into its two pieces. */
  lemma TwoValuePieces(k: string, x: string, y: string)
    requires '&' !in k && '&' !in x && '&' !in y
    ensures Split(QueryText("?" + k + "=" + x + "&" + k + "=" + y), '&') == [k + "=" + x, k + "=" + y]
  {
    var px, py := k + "=" + x, k + "=" + y;
    PieceFree(k, x);
    PieceFree(k, y);
    assert "?" + k + "=" + x + "&" + k + "=" + y == "?" + (px + ['&'] + py);
    SplitTwo(px, py, '&');
  }

  /** Two separator-free pieces joined by the separator split back into both. */
  lemma SplitTwo(p: string, q: string, c: char)
    requires c !in p && c !in q
    ensures Split(p + [c] + q, c) == [p, q]
  {
    var parts := [p, q];
    assert parts[1..] == [q];
    assert Join(parts, [c]) == p + [c] + q;
    SplitJoin(parts, c);
  }

  /**
   A host taken from the parameters is never empty, so the controller built
   for it keeps it instead of falling back to the default host.
   */
  lemma ParamHostKept(search: string)
    requires GetParams(search).Parsed? && ParamHost(GetParams(search).params).Some?
    ensures ParamHost(GetParams(search).params).value != ""
    ensures NewController(ParamHost(GetParams(search).params), None).host == ParamHost(GetParams(search).params).value
  {
    var v := GetParams(search).params["host"];
    if v.Arr? {
      HostTextOfArray(v.items);
    }
  }

  /** An array's host text is never empty: it holds at least the separators. */
  lemma HostTextOfArray(items: seq<Option<string>>)
    requires |items| >= 2
    ensures HostText(Arr(items)) != ""
  {
    var texts := seq(|items|, i requires 0 <= i < |items| => AttrText(items[i]));
    assert Join(texts, ",") == texts[0] + "," + Join(texts[1..], ",");
  }

  /** Without a truthy `host` parameter, a truthy stored host is connected to at once. */
  lemma InitUsesStorage(a: App, search: string, baseUrl: string)
    requires GetParams(search).Parsed? && ParamHost(GetParams(search).params).None?
    requires a.storedHost.Some? && a.storedHost.value != ""
    ensures Init(a, search, baseUrl) == Started(Connect(a, a.storedHost.value))
    ensures NewController(a.storedHost, None).host == a.storedHost.value
  {
  }

  /**
   With no truthy host anywhere, `init` asks the provider; on a fresh app
   every host of the default range is probed for `initRoku_`, and no GUI is
   set up until a probe answers.
   */
  lemma InitDiscovers(a: App, search: string, baseUrl: string)
    requires GetParams(search).Parsed? && ParamHost(GetParams(search).params).None?
    requires a.storedHost.None? || a.storedHost.value == ""
    ensures Init(a, search, baseUrl) == Started(Rediscover(a, baseUrl))
    ensures a == NewApp(a.storedHost) ==>
              var b := Rediscover(a, baseUrl);
              && b.session.provider.looking && b.session.provider.controller == None
              && b.session.probes == Probes(DefaultStartByte, DefaultEndByte, baseUrl, InitRoku)
              && |b.session.probes| == DefaultEndByte - DefaultStartByte + 1
              && Guis(b) == []
  {
  }

  /** A page opened with `?host=<h>` connects to `h`, whatever local storage holds. */
  lemma HostParamConnects(a: App, h: string, baseUrl: string)
    requires h != "" && '&' !in h && '=' !in h
    ensures Init(a, "?host=" + h, baseUrl) == Started(Connect(a, h))
    ensures NewController(Some(h), None).host == h
  {
    HostQuery(h);
    InitPrefersParam(a, "?host=" + h, baseUrl, Str(h));
  }

  /** `?host=<h>` parses to the single parameter `host`. */
  lemma HostQuery(h: string)
    requires '&' !in h && '=' !in h
    ensures GetParams("?host=" + h) == Parsed(map["host" := Str(h)])
  {
    var piece := "host" + "=" + h;
    PieceOf("host", h);
    PieceFree("host", h);
    assert "?host=" + h == "?" + piece by {
      var mark := "?host=";
      assert mark == "?" + ("host" + "=");
    }
    QueryTextAfterMark(piece);
    assert Split(piece, '&') == [piece];
    assert [piece][..0] == [];
    assert "host" !in InheritedKeys;
    assert AddPieces([], InheritedKeys) == Parsed(map[]);
  }

  /** A key press after connecting to `h` is posted to `h`, at path `keypress/<key>`. */
  lemma PressKeyAfterParamHost(a: App, h: string, baseUrl: string, key: string)
    requires h != "" && '&' !in h && '=' !in h && PlainHost(h) && '/' !in key
    ensures Init(a, "?host=" + h, baseUrl).Started?
    ensures var b := Init(a, "?host=" + h, baseUrl).app;
            var c := PressKeyOn(b, baseUrl, key);
            && PostedKeys(c.session.delivered) == PostedKeys(b.session.delivered) + [PressKey(NewController(Some(h), None), key)]
            && ParseUrl(PressKey(NewController(Some(h), None), key)) == Some(UrlParts(h, DefaultPort, ["keypress", key]))
  {
    HostParamConnects(a, h, baseUrl);
    var roku := NewController(Some(h), None);
    var b := Init(a, "?host=" + h, baseUrl).app;
    var c := PressKeyOn(b, baseUrl, key);
    assert c.session.delivered == b.session.delivered + [Delivery(PressKeyCallback(key), roku)];
    assert (b.session.delivered + [Delivery(PressKeyCallback(key), roku)])[..|b.session.delivered|] == b.session.delivered;
    PressKeyTarget(roku, key);
  }

  // Properties of `reset`.

  /**
   As written, `reset` stores the text "null", so after the page is
   reloaded without a `host` parameter, `init` connects to a host named
   "null" instead of discovering one.
   */
  lemma ResetThenReloadUsesNullHost(a: App, search: string, baseUrl: string)
    requires GetParams(search).Parsed? && ParamHost(GetParams(search).params).None?
    ensures var reloaded := NewApp(ResetApp(a, baseUrl).storedHost);
            && Init(reloaded, search, baseUrl).Started?
            && Init(reloaded, search, baseUrl).app.session.provider.controller
               == Some(NewController(Some(NullText), None))
            && Init(reloaded, search, baseUrl).app.session.probes == []
  {
    InitUsesStorage(NewApp(Some(NullText)), search, baseUrl);
    assert NullText != "";
  }

  /**
   The corrected `reset` leaves no stored host, so after a reload without a
   `host` parameter `init` discovers an appliance.
   */
  lemma ResetCorrectedThenReloadDiscovers(a: App, search: string, baseUrl: string)
    requires GetParams(search).Parsed? && ParamHost(GetParams(search).params).None?
    ensures var reloaded := NewApp(ResetAppCorrected(a, baseUrl).storedHost);
            && Init(reloaded, search, baseUrl).Started?
            && Init(reloaded, search, baseUrl).app.session.provider.controller == None
            && Init(reloaded, search, baseUrl).app.session.probes
               == Probes(DefaultStartByte, DefaultEndByte, baseUrl, InitRoku)
  {
    InitDiscovers(NewApp(None), search, baseUrl);
  }

  /**
   As written, `reset` on an app with a cached controller hands that same
   controller straight back to `initRoku_` and probes nothing.
   */
  lemma ResetReturnsCachedController(a: App, baseUrl: string)
    requires a.session.provider.controller.Some?
    ensures var b := ResetApp(a, baseUrl);
            && Guis(b) == Guis(a) + [a.session.provider.controller.value]
            && b.session.probes == a.session.probes
            && b.session.provider == a.session.provider
  {
    var c := a.session.provider.controller.value;
    DeliveredSnoc(a.session.delivered, Delivery(InitRoku, c), InitRoku);
  }

  /**
   The corrected `reset` always looks afresh: the whole range is probed for
   `initRoku_`, nothing is cached, and no GUI is set up until a probe answers.
   */
  lemma ResetCorrectedProbes(a: App, baseUrl: string)
    ensures var b := ResetAppCorrected(a, baseUrl);
            var p := a.session.provider;
            && Guis(b) == Guis(a)
            && b.session.provider.controller == None && b.session.provider.looking
            && b.session.probes == a.session.probes + Probes(p.startByte, p.endByte, baseUrl, InitRoku)
            && b.storedHost == None
  {
  }
}

=== FILE: controller.dfy ===
/**
 `Roku.Controller` and `Roku.Channel` (roku.js): building command URLs for
 one appliance, parsing its application listing, and the one-slot cache of
 that listing kept by `getApps`.

 Browser plumbing is abstracted: a posted command is represented by the URL
 handed to `postToUrl_`, an XML response by its raw text plus the attribute
 maps of its `app` elements in document order, `getBaseUrl()` by a string
 parameter, and JavaScript's `escape` by a function parameter.
 */
module RokuController {
  import opened Wrappers
  import opened Strings

  const DefaultHost := "192.168.1.110"
  const DefaultPort := 8060
  /** The marker whose presence disqualifies a listing response. */
  const WarningMarker := "Warning"

  /** An attribute as `getAttribute` returns it: `None` is JavaScript's `null`. */
  type Attr = Option<string>

  /** `Roku.Channel`: one installed application. */
  datatype Channel = Channel(id: Attr, version: Attr, name: Attr)

  /** How `Array.prototype.join` renders an attribute: `null` becomes "". */
  function AttrText(a: Attr): string {
    a.GetOr("")
  }

  /** A controller's fields: `host_`, `port_`, and the cached `apps_` (`None` is `null`). */
  datatype Controller = Controller(host: string, port: int, apps: Option<seq<Channel>>)

  /**
   `new Roku.Controller(opt_host, opt_port)`. An absent or empty host and an
   absent or zero port are falsy and take the defaults, so the stored host is
   never empty and the stored port never zero.
   */
  function NewController(optHost: Option<string>, optPort: Option<int>): (c: Controller)
    ensures c.apps == None
    ensures c.host != "" && c.port != 0
    ensures optHost.None? || optHost.value == "" ==> c.host == DefaultHost
    ensures optHost.Some? && optHost.value != "" ==> c.host == optHost.value
    ensures optPort.None? || optPort.value == 0 ==> c.port == DefaultPort
    ensures optPort.Some? && optPort.value != 0 ==> c.port == optPort.value
  {
    var host := if optHost.Some? && optHost.value != "" then optHost.value else DefaultHost;
    var port := if optPort.Some? && optPort.value != 0 then optPort.value else DefaultPort;
    Controller(host, port, None)
  }

  /**
   The `opt_path` argument of `getUrl_`: missing (or any falsy value), a
   single non-array value, or an array of segments.
   */
  datatype Path = NoPath | Single(segment: string) | Segments(segments: seq<string>)

  /** The array `getUrl_` joins: a falsy path becomes `['']`, a non-array `[p]`. */
  function PathSegments(p: Path): seq<string> {
    match p
    case NoPath => [""]
    case Single(s) => [s]
    case Segments(ss) => ss
  }

  /** `host` followed by `:port` when the port is truthy. */
  function Authority(c: Controller): string {
    c.host + (if c.port != 0 then ":" + Decimal(c.port) else "")
  }

  /**
   `getUrl_(opt_path)`: `http://host[:port]/` followed by the path segments
   joined by `/`. `UrlRoundTrip` shows that nothing is lost.
   */
  function Url(c: Controller, p: Path): (u: string)
    ensures |u| > 7 + |Authority(c)| && u[..7] == "http://" && u[7..7 + |Authority(c)|] == Authority(c)
    ensures u[7 + |Authority(c)|] == '/' && u[8 + |Authority(c)|..] == Join(PathSegments(p), "/")
  {
    var auth := Authority(c);
    var pathText := Join(PathSegments(p), "/");
    UrlPieces(auth, pathText);
    "http://" + auth + "/" + pathText
  }

  /** Where the pieces of `http://<auth>/<rest>` sit. */
  lemma UrlPieces(auth: string, rest: string)
    ensures var u := "http://" + auth + "/" + rest;
            && |u| > 7 + |auth| && u[..7] == "http://" && u[7..7 + |auth|] == auth
            && u[7 + |auth|] == '/' && u[8 + |auth|..] == rest
            && ('/' !in auth ==> CharIndex(u[7..], '/') == |auth|)
  {
    var u := "http://" + auth + "/" + rest;
    assert u[7..] == auth + ['/'] + rest;
    if '/' !in auth {
      CharIndexAfterFree(auth, '/', rest);
    }
  }

  /** The parts a command URL is made of. */
  datatype UrlParts = UrlParts(host: string, port: int, segments: seq<string>)

  /** Reads `host[:port]` back; the port is 0 when none is written. */
  function ParseAuthority(authority: string): Option<(string, int)> {
    var colon := CharIndex(authority, ':');
    if colon < 0 then Some((authority, 0))
    else
      var portText := authority[colon + 1..];
      if IsDigits(portText) || (|portText| > 1 && portText[0] == '-' && IsDigits(portText[1..])) then
        Some((authority[..colon], ParseDecimal(portText)))
      else None
  }

  /**
   Reads a URL of the shape `getUrl_` produces back into host, port (0 when
   the URL names none) and path segments; `None` for any other shape.
   */
  function ParseUrl(u: string): Option<UrlParts> {
    if |u| < 7 || u[..7] != "http://" then None
    else
      var rest := u[7..];
      var slash := CharIndex(rest, '/');
      if slash < 0 then None
      else
        match ParseAuthority(rest[..slash])
        case None => None
        case Some(hp) => Some(UrlParts(hp.0, hp.1, Split(rest[slash + 1..], '/')))
  }

  /** A host that can be read back out of a URL: no `:` and no `/` in it. */
  predicate PlainHost(host: string) {
    ':' !in host && '/' !in host
  }

  /** Path segments that can be read back: at least one, none holding a `/`. */
  predicate PlainSegments(segments: seq<string>) {
    |segments| >= 1 && forall i :: 0 <= i < |segments| ==> '/' !in segments[i]
  }

  /** The authority of a plain host holds no `/` and reads back as host and port. */
  lemma AuthorityRoundTrip(c: Controller)
    requires PlainHost(c.host)
    ensures '/' !in Authority(c)
    ensures ParseAuthority(Authority(c)) == Some((c.host, c.port))
  {
    var auth := Authority(c);
    if c.port != 0 {
      var d := Decimal(c.port);
      assert auth == c.host + [':'] + d;
      assert '/' !in d;
      CharIndexAfterFree(c.host, ':', d);
      assert auth[|c.host| + 1..] == d;
      assert auth[..|c.host|] == c.host;
      DecimalRoundTrip(c.port);
    } else {
      assert auth == c.host;
    }
  }

  /**
   `getUrl_` loses nothing: host, port and segments are recovered from the
   URL whenever the host and segments hold no separator characters.
   */
  lemma UrlRoundTrip(c: Controller, p: Path)
    ensures PlainHost(c.host) && PlainSegments(PathSegments(p)) ==>
              ParseUrl(Url(c, p)) == Some(UrlParts(c.host, c.port, PathSegments(p)))
  {
    if PlainHost(c.host) && PlainSegments(PathSegments(p)) {
      var u := Url(c, p);
      var auth := Authority(c);
      var pathText := Join(PathSegments(p), "/");
      var rest := u[7..];
      AuthorityRoundTrip(c);
      UrlPieces(auth, pathText);
      assert u == "http://" + auth + "/" + pathText;
      assert CharIndex(rest, '/') == |auth|;
      assert rest[..|auth|] == u[7..7 + |auth|] == auth;
      assert rest[|auth| + 1..] == pathText;
      SplitJoin(PathSegments(p), '/');
    }
  }

  /** The query string `sendCommand` appends: `?` before the first pair, `&` before later ones. */
  function Query(pairs: seq<(string, string)>, escape: string -> string, first: bool): (q: string)
    ensures q == "" <==> |pairs| == 0
    ensures |pairs| > 0 ==> q[0] == (if first then '?' else '&')
  {
    if |pairs| == 0 then ""
    else
      (if first then "?" else "&") + pairs[0].0 + "=" + escape(pairs[0].1)
      + Query(pairs[1..], escape, false)
  }

  /** One `key=escape(value)` pair of the query string; the key is not escaped. */
  function PairText(pair: (string, string), escape: string -> string): string {
    pair.0 + "=" + escape(pair.1)
  }

  /** The texts of all pairs, in order. */
  function PairTexts(pairs: seq<(string, string)>, escape: string -> string): (r: seq<string>)
    ensures |r| == |pairs|
    ensures forall i :: 0 <= i < |pairs| ==> r[i] == PairText(pairs[i], escape)
  {
    seq(|pairs|, i requires 0 <= i < |pairs| => PairText(pairs[i], escape))
  }

  /**
   The query of a non-empty pair list is `?` followed by the pair texts
   joined with `&`: the first own key gets `?`, every later one `&`.
   */
  lemma {:induction false} QueryIsJoin(pairs: seq<(string, string)>, escape: string -> string)
    requires |pairs| >= 1
    ensures Query(pairs, escape, true) == "?" + Join(PairTexts(pairs, escape), "&")
    ensures Query(pairs, escape, false) == "&" + Join(PairTexts(pairs, escape), "&")
    decreases |pairs|
  {
    var texts := PairTexts(pairs, escape);
    if |pairs| > 1 {
      QueryIsJoin(pairs[1..], escape);
      assert texts[1..] == PairTexts(pairs[1..], escape);
    } else {
      assert Query(pairs[1..], escape, false) == "";
    }
  }

  /**
   `sendCommand(path, values)`: the URL posted. `None` stands for an absent
   `values` argument; otherwise the own properties in enumeration order.
   */
  function SendCommand(c: Controller, p: Path, values: Option<seq<(string, string)>>, escape: string -> string): (url: string)
    ensures values == None || values == Some([]) ==> url == Url(c, p)
    ensures values.Some? && |values.value| > 0 ==>
              url == Url(c, p) + "?" + Join(PairTexts(values.value, escape), "&")
  {
    if values.Some? && |values.value| > 0 then
      QueryIsJoin(values.value, escape);
      Url(c, p) + Query(values.value, escape, true)
    else
      Url(c, p)
  }

  /** Commands built by this module pass no values, so `escape` is never applied. */
  function NoEscape(s: string): string {
    s
  }

  /** `pressKey(key)`: posts `getUrl_(['keypress', key])`, with no query. */
  function PressKey(c: Controller, key: string): (u: string)
    ensures u == Url(c, Segments(["keypress", key]))
  {
    SendCommand(c, Segments(["keypress", key]), None, NoEscape)
  }

  /** A key press posts to this controller's host and port, at path `keypress/<key>`. */
  lemma PressKeyTarget(c: Controller, key: string)
    requires PlainHost(c.host) && '/' !in key
    ensures ParseUrl(PressKey(c, key)) == Some(UrlParts(c.host, c.port, ["keypress", key]))
  {
    assert '/' !in "keypress";
    assert PlainSegments(["keypress", key]);
    UrlRoundTrip(c, Segments(["keypress", key]));
  }

  /**
   `launchChannel_(id)`: posts `getUrl_(['launch', id])` with no query; a
   missing id is joined as "".
   */
  function LaunchChannel(c: Controller, channelId: Attr): (u: string)
    ensures u == Url(c, Segments(["launch", AttrText(channelId)]))
  {
    SendCommand(c, Segments(["launch", AttrText(channelId)]), None, NoEscape)
  }

  /** A launch URL of plain parts reads back as this host, this port and `launch/<id>`. */
  lemma LaunchChannelTarget(c: Controller, channelId: Attr)
    ensures PlainHost(c.host) && '/' !in AttrText(channelId) ==>
              ParseUrl(LaunchChannel(c, channelId)) == Some(UrlParts(c.host, c.port, ["launch", AttrText(channelId)]))
  {
    var id := AttrText(channelId);
    assert '/' !in "launch";
    assert PlainSegments(["launch", id]) <== '/' !in id;
    UrlRoundTrip(c, Segments(["launch", id]));
  }

  /** `launchApp(app)`: launches the channel with the application's id. */
  function LaunchApp(c: Controller, app: Channel): (u: string)
    ensures u == Url(c, Segments(["launch", AttrText(app.id)]))
  {
    LaunchChannel(c, app.id)
  }

  /** `getIconPath(app)`: the `query/icon/<id>` URL of this controller, built without any request. */
  function IconPath(c: Controller, app: Channel): (u: string)
    ensures u == Url(c, Segments(["query", "icon", AttrText(app.id)]))
  {
    Url(c, Segments(["query", "icon", AttrText(app.id)]))
  }

  /** An icon URL of plain parts reads back as this host, this port and `query/icon/<id>`. */
  lemma IconPathTarget(c: Controller, app: Channel)
    ensures PlainHost(c.host) && '/' !in AttrText(app.id) ==>
              ParseUrl(IconPath(c, app)) == Some(UrlParts(c.host, c.port, ["query", "icon", AttrText(app.id)]))
  {
    var id := AttrText(app.id);
    assert '/' !in "query" && '/' !in "icon";
    assert PlainSegments(["query", "icon", id]) <== '/' !in id;
    UrlRoundTrip(c, Segments(["query", "icon", id]));
  }

  /** The default controller's key press lands on the documented URL shape. */
  lemma PressKeyExample()
    ensures PressKey(NewController(Some("192.168.1.101"), None), "Home")
            == "http://" + "192.168.1.101" + ":" + "8060" + "/" + "keypress" + "/" + "Home"
  {
    var c := NewController(Some("192.168.1.101"), None);
    var segs := ["keypress", "Home"];
    DefaultPortText();
    assert Authority(c) == "192.168.1.101" + ":" + "8060";
    assert segs[1..] == ["Home"];
    assert Join(segs, "/") == "keypress" + "/" + "Home";
    assert PressKey(c, "Home") == "http://" + Authority(c) + "/" + Join(segs, "/");
    Regroup("http://", "192.168.1.101", ":", "8060", "/", "keypress", "/", "Home");
  }

  /** Regrouping a concatenation of eight strings. */
  lemma Regroup(a: string, b: string, c: string, d: string, e: string, f: string, g: string, h: string)
    ensures a + (b + c + d) + e + (f + g + h) == a + b + c + d + e + f + g + h
  {
  }

  /** The default port is written `8060`. */
  lemma DefaultPortText()
    ensures Decimal(DefaultPort) == "8060"
  {
    assert Digits(8) == "8";
    assert Digits(80) == Digits(8) + "0";
    assert Digits(806) == Digits(80) + "6";
    assert Digits(8060) == Digits(806) + "0";
  }

  /** An `app` element: the attributes `getAttribute` can read. */
  datatype AppNode = AppNode(attributes: map<string, string>)

  /** `getAttribute(name)`: the value, or `null` when the element lacks it. */
  function GetAttribute(node: AppNode, name: string): Attr {
    if name in node.attributes then Some(node.attributes[name]) else None
  }

  /**
   A listing response: the raw body text, and the `app` elements of the
   document it parses to, in document order.
   */
  datatype XmlResponse = XmlResponse(text: string, appNodes: seq<AppNode>)

  /** The channel built from one `app` element. */
  function ChannelOf(node: AppNode): Channel {
    Channel(GetAttribute(node, "id"), GetAttribute(node, "version"), GetAttribute(node, "name"))
  }

  /**
   `appsFromXml_`: `None` exactly when the body mentions the warning marker;
   otherwise one channel per `app` element, in order, with id, version and
   name copied from its attributes.
   */
  function AppsFromXml(x: XmlResponse): (r: Option<seq<Channel>>)
    ensures r.None? <==> ContainsText(x.text, WarningMarker)
    ensures r.Some? ==> |r.value| == |x.appNodes|
    ensures r.Some? ==> forall i :: 0 <= i < |x.appNodes| ==>
              && r.value[i].id == GetAttribute(x.appNodes[i], "id")
              && r.value[i].version == GetAttribute(x.appNodes[i], "version")
              && r.value[i].name == GetAttribute(x.appNodes[i], "name")
  {
    if IndexOf(x.text, WarningMarker) > -1 then None
    else Some(seq(|x.appNodes|, i requires 0 <= i < |x.appNodes| => ChannelOf(x.appNodes[i])))
  }

  /**
   The request callback of `getApps` on one controller: a parsed list
   replaces `apps_` (an empty list included: it is a truthy array); a
   disqualified response changes nothing.
   */
  function Receive(c: Controller, x: XmlResponse): (r: (Controller, Option<seq<Channel>>))
    ensures r.1 == AppsFromXml(x)
    ensures r.0.host == c.host && r.0.port == c.port
    ensures r.1.None? ==> r.0 == c
    ensures r.1.Some? ==> r.0.apps == r.1
  {
    var parsed := AppsFromXml(x);
    if parsed.Some? then (c.(apps := parsed), parsed) else (c, None)
  }

  /**
   The `n=` value of the lookup URL: the host with everything up to its
   last dot removed. A dot-free host is kept whole.
   */
  function LookupKey(host: string): (k: string)
    ensures '.' !in host ==> k == host
    ensures |k| <= |host|
  {
    StripThroughLastDot(host)
  }

  /** The marker between the base URL and the lookup key. */
  const LookupPath := "apps.php?n="

  /**
   The URL `getApps` requests its listing from: the base URL, `apps.php?n=`
   and the lookup key, so a dot-free host is sent whole.
   */
  function LookupUrl(baseUrl: string, host: string): (u: string)
    ensures |u| >= |baseUrl| + |LookupPath| && u[..|baseUrl| + |LookupPath|] == baseUrl + LookupPath
    ensures u[|baseUrl| + |LookupPath|..] == LookupKey(host)
    ensures '.' !in host ==> u == baseUrl + LookupPath + host
  {
    baseUrl + LookupPath + LookupKey(host)
  }

  /** For a dotted one-line host the lookup key is exactly the part after the last dot. */
  lemma LookupKeyAfterLastDot(prefix: string, last: string)
    requires forall i :: 0 <= i < |prefix| ==> !IsLineTerminator(prefix[i])
    requires forall i :: 0 <= i < |last| ==> !IsLineTerminator(last[i]) && last[i] != '.'
    ensures LookupKey(prefix + "." + last) == last
  {
    var s := prefix + "." + last;
    assert LineEnd(s) == |s|;
    assert s[..|s|] == s;
    LastCharIndexBeforeFree(prefix, '.', last);
    assert s[|prefix| + 1..] == last;
  }

  /** A listing request `getApps` has issued and not yet had answered. */
  datatype Fetch<C> = Fetch(url: string, caller: C)

  /** One `callback(apps, controller)` invocation made by `getApps`. */
  datatype AppsDelivery<C> = AppsDelivery(caller: C, apps: seq<Channel>, controller: Controller)

  /**
   One controller seen from outside: its fields, the listing requests still
   outstanding, the callbacks made so far and the number of requests issued.
   */
  datatype Client<C> = Client(controller: Controller, pending: seq<Fetch<C>>,
                              delivered: seq<AppsDelivery<C>>, requests: nat)

  function NewClient<C>(c: Controller): Client<C> {
    Client(c, [], [], 0)
  }

  /**
   `getApps(callback)`: with a cached list the callback runs at once with it
   and no request is issued; otherwise one request to the lookup URL is.
   */
  function GetApps<C>(s: Client<C>, baseUrl: string, caller: C): (t: Client<C>)
    ensures t.controller == s.controller
    ensures s.controller.apps.Some? ==>
              t.requests == s.requests && t.pending == s.pending
              && t.delivered == s.delivered + [AppsDelivery(caller, s.controller.apps.value, s.controller)]
    ensures s.controller.apps.None? ==>
              t.requests == s.requests + 1 && t.delivered == s.delivered
              && t.pending == s.pending + [Fetch(LookupUrl(baseUrl, s.controller.host), caller)]
  {
    match s.controller.apps
    case Some(apps) => s.(delivered := s.delivered + [AppsDelivery(caller, apps, s.controller)])
    case None =>
      s.(pending := s.pending + [Fetch(LookupUrl(baseUrl, s.controller.host), caller)],
         requests := s.requests + 1)
  }

  /**
   The response to outstanding request `k` arrives with body `x`. A parsed
   list is stored and handed to that request's caller; a disqualified body
   is dropped silently. An index naming no outstanding request is ignored.
   */
  function Respond<C>(s: Client<C>, k: nat, x: XmlResponse): (t: Client<C>)
    ensures t.requests == s.requests
    ensures k < |s.pending| ==> t.pending == s.pending[..k] + s.pending[k + 1..]
    ensures AppsFromXml(x).None? || k >= |s.pending| ==> t.controller == s.controller && t.delivered == s.delivered
    ensures AppsFromXml(x).Some? && k < |s.pending| ==>
              t.controller.apps == AppsFromXml(x)
              && t.delivered == s.delivered + [AppsDelivery(s.pending[k].caller, AppsFromXml(x).value, t.controller)]
  {
    if k >= |s.pending| then s
    else
      var fetch := s.pending[k];
      var (c, parsed) := Receive(s.controller, x);
      var rest := s.pending[..k] + s.pending[k + 1..];
      match parsed
      case None => s.(pending := rest)
      case Some(apps) =>
        s.(controller := c, pending := rest,
           delivered := s.delivered + [AppsDelivery(fetch.caller, apps, c)])
  }

  /** What can happen to a controller's listing: a `getApps` call, or a response arriving. */
  datatype ClientEvent<C> = Call(caller: C) | Response(index: nat, body: XmlResponse)

  function RunClient<C>(s: Client<C>, baseUrl: string, events: seq<ClientEvent<C>>): Client<C>
    decreases |events|
  {
    if |events| == 0 then s
    else
      var s' := match events[0]
        case Call(caller) => GetApps(s, baseUrl, caller)
        case Response(k, x) => Respond(s, k, x);
      RunClient(s', baseUrl, events[1..])
  }

  /**
   The cache is one-way: once a list is held, no event sequence empties it
   again, no further request is ever issued, and host and port never change.
   */
  lemma {:induction false} CachedListIsKept<C>(s: Client<C>, baseUrl: string, events: seq<ClientEvent<C>>)
    requires s.controller.apps.Some?
    ensures RunClient(s, baseUrl, events).controller.apps.Some?
    ensures RunClient(s, baseUrl, events).requests == s.requests
    ensures RunClient(s, baseUrl, events).controller.host == s.controller.host
    decreases |events|
  {
    if |events| > 0 {
      var s' := match events[0]
        case Call(caller) => GetApps(s, baseUrl, caller)
        case Response(k, x) => Respond(s, k, x);
      CachedListIsKept(s', baseUrl, events[1..]);
    }
  }

  /**
   Two `getApps` calls with a successful response in between issue exactly
   one request, and both callers receive the same parsed list.
   */
  lemma SecondCallUsesCache<C>(c: Controller, baseUrl: string, first: C, second: C, x: XmlResponse)
    requires c.apps.None?
    requires AppsFromXml(x).Some?
    ensures var t := RunClient(NewClient(c), baseUrl, [Call(first), Response(0, x), Call(second)]);
            && t.requests == 1
            && |t.delivered| == 2
            && t.delivered[0].caller == first && t.delivered[1].caller == second
            && t.delivered[0].apps == t.delivered[1].apps == AppsFromXml(x).value
  {
    var s0 := NewClient<C>(c);
    var s1 := GetApps(s0, baseUrl, first);
    var s2 := Respond(s1, 0, x);
    var s3 := GetApps(s2, baseUrl, second);
    var ev: seq<ClientEvent<C>> := [Call(first), Response(0, x), Call(second)];
    assert ev[1..] == [Response(0, x), Call(second)];
    assert ev[1..][1..] == [Call(second)];
    assert RunClient(s3, baseUrl, []) == s3;
    assert RunClient(s2, baseUrl, [Call(second)]) == s3;
    assert RunClient(s1, baseUrl, ev[1..]) == s3;
  }
}

=== FILE: params.dfy ===
/**
 `getParams` (app.js): reads the page's query string into an object.

 The string after the leading `?` is split on `&`; each piece is split on
 `=`, its key is the text before the first `=`, its value the text between
 the first and second `=` (or `undefined` without any `=`). A key seen for
 the first time, or whose stored value is `undefined`, is assigned; a second
 occurrence turns a stored string into the array `[first, second]`; later
 ones are pushed onto the array.

 The object starts as `{}`, which inherits `Object.prototype`: for a key
 such as `toString` the lookup finds an inherited function, takes the
 "array" branch and calls `.push` on it, which throws a `TypeError`. That
 outcome is modelled as `PushOnNonArray`.
 */
module Params {
  import opened Wrappers
  import opened Strings

  /** A stored parameter: `undefined`, a string, or an array of strings and `undefined`s. */
  datatype ParamValue = Undefined | Str(text: string) | Arr(items: seq<Option<string>>)

  /** The result of `getParams`: the parameter object, or the `TypeError` thrown for a key. */
  datatype ParamsResult = Parsed(params: map<string, ParamValue>) | PushOnNonArray(key: string)

  /** The properties every `{}` inherits from `Object.prototype`. */
  const InheritedKeys: set<string> := {
    "constructor", "hasOwnProperty", "isPrototypeOf", "propertyIsEnumerable",
    "toLocaleString", "toString", "valueOf", "__proto__",
    "__defineGetter__", "__defineSetter__", "__lookupGetter__", "__lookupSetter__"
  }

  /** `window.location.search.substring(1)`: the search string without its leading `?`. */
  function QueryText(search: string): (t: string)
    ensures |t| == if |search| == 0 then 0 else |search| - 1
    ensures |search| > 0 ==> search == [search[0]] + t
  {
    if |search| == 0 then "" else search[1..]
  }

  /** `pair[0]`: the text of a piece before its first `=`. */
  function PieceKey(piece: string): (k: string)
    ensures '=' !in k
    ensures |k| <= |piece| && piece[..|k|] == k
    ensures |k| < |piece| ==> piece[|k|] == '='
  {
    SplitFirstPart(piece, '=');
    Split(piece, '=')[0]
  }

  /**
   `pair[1]`: `None` (undefined) when the piece has no `=`, otherwise the
   second `=`-separated part.
   */
  function PieceValue(piece: string): (v: Option<string>)
    ensures v.None? <==> '=' !in piece
  {
    SplitCount(piece, '=');
    var parts := Split(piece, '=');
    if |parts| >= 2 then Some(parts[1]) else None
  }

  /**
   A piece's value is the text right after the first `=`, up to the next
   `=` or the end of the piece.
   */
  lemma PieceValueText(piece: string)
    ensures var v := PieceValue(piece);
            v.Some? ==> && '=' !in v.value
                        && |PieceKey(piece)| + 1 + |v.value| <= |piece|
                        && piece[|PieceKey(piece)| + 1..|PieceKey(piece)| + 1 + |v.value|] == v.value
                        && (|PieceKey(piece)| + 1 + |v.value| == |piece|
                            || piece[|PieceKey(piece)| + 1 + |v.value|] == '=')
  {
    if '=' in piece {
      SplitFirstPart(piece, '=');
      SplitSecondPart(piece, '=', CharIndex(piece, '='), Split(piece, '=')[1]);
      assert |PieceKey(piece)| == CharIndex(piece, '=');
    }
  }

  /** What an assignment `params[key] = pair[1]` stores. */
  function Assigned(v: Option<string>): ParamValue {
    if v.Some? then Str(v.value) else Undefined
  }

  /**
   The value stored after one more occurrence of a key already present:
   while the key is undefined the occurrence is simply assigned; once it has
   a value, the result is an array that keeps the earlier values and ends
   with the new one.
   */
  function Promote(stored: ParamValue, v: Option<string>): (p: ParamValue)
    ensures stored.Undefined? ==> p == Assigned(v)
    ensures !stored.Undefined? ==> p.Arr? && |p.items| >= 1 && p.items[|p.items| - 1] == v
    ensures stored.Str? ==> |p.items| == 2 && p.items[0] == Some(stored.text)
    ensures stored.Arr? ==> |p.items| == |stored.items| + 1 && p.items[..|stored.items|] == stored.items
  {
    match stored
    case Undefined => Assigned(v)
    case Str(s) => Arr([Some(s), v])
    case Arr(items) => Arr(items + [v])
  }

  /**
   One iteration of the loop, on one `&`-separated piece; `inherited` is
   the set of keys the empty object already answers for.
   */
  function AddPiece(r: ParamsResult, piece: string, inherited: set<string>): (a: ParamsResult)
    ensures r.PushOnNonArray? ==> a == r
    ensures r.Parsed? && a.PushOnNonArray? <==>
              r.Parsed? && PieceKey(piece) !in r.params && PieceKey(piece) in inherited
    ensures a.PushOnNonArray? && r.Parsed? ==> a.key == PieceKey(piece)
    ensures r.Parsed? && a.Parsed? ==>
              && a.params.Keys == r.params.Keys + {PieceKey(piece)}
              && forall k :: k in r.params && k != PieceKey(piece) ==> a.params[k] == r.params[k]
  {
    match r
    case PushOnNonArray(_) => r
    case Parsed(m) =>
      var k := PieceKey(piece);
      var v := PieceValue(piece);
      if k in m then Parsed(m[k := Promote(m[k], v)])
      else if k in inherited then PushOnNonArray(k)
      else Parsed(m[k := Assigned(v)])
  }

  /** The loop over the pieces, in order. */
  function AddPieces(pieces: seq<string>, inherited: set<string>): ParamsResult
    decreases |pieces|
  {
    if |pieces| == 0 then Parsed(map[])
    else AddPiece(AddPieces(pieces[..|pieces| - 1], inherited), pieces[|pieces| - 1], inherited)
  }

  /**
   `getParams()` applied to the page's `location.search`. It throws only
   for a key `{}` inherits; otherwise no key is an inherited one, and every
   array it builds holds at least two values.
   */
  function GetParams(search: string): (r: ParamsResult)
    ensures r.PushOnNonArray? ==> r.key in InheritedKeys
    ensures r.Parsed? ==> forall k :: k in r.params ==> k !in InheritedKeys
    ensures r.Parsed? ==> forall k :: k in r.params && r.params[k].Arr? ==> |r.params[k].items| >= 2
  {
    var pieces := Split(QueryText(search), '&');
    var r := AddPieces(pieces, InheritedKeys);
    AddPiecesMatchesReference(pieces, InheritedKeys);
    if r.Parsed? then
      ArraysHaveTwoItems(r.params, pieces);
      r
    else r
  }

  // A reference definition of the result, independent of the loop.

  /** The keys of all pieces. */
  function PieceKeys(pieces: seq<string>): set<string> {
    set i | 0 <= i < |pieces| :: PieceKey(pieces[i])
  }

  /** The values of the pieces with key `k`, in order. */
  function Occurrences(pieces: seq<string>, k: string): seq<Option<string>>
    decreases |pieces|
  {
    if |pieces| == 0 then []
    else
      var last := pieces[|pieces| - 1];
      Occurrences(pieces[..|pieces| - 1], k) + (if PieceKey(last) == k then [PieceValue(last)] else [])
  }

  /** The occurrences from the first defined value on. */
  function FromFirstDefined(occ: seq<Option<string>>): (d: seq<Option<string>>)
    ensures |d| > 0 ==> d[0].Some?
    ensures |d| <= |occ| && d == occ[|occ| - |d|..]
    ensures forall i :: 0 <= i < |occ| - |d| ==> occ[i].None?
    decreases |occ|
  {
    if |occ| == 0 then []
    else if occ[0].None? then
      var rest := FromFirstDefined(occ[1..]);
      assert forall i :: 1 <= i < |occ| ==> occ[1..][i - 1] == occ[i];
      rest
    else occ
  }

  /**
   The value a key ends up with: `undefined` while only undefined values
   were seen, the first defined value when it is the last occurrence, and
   otherwise the array of that value and every occurrence after it.
   */
  function Settled(occ: seq<Option<string>>): ParamValue {
    var d := FromFirstDefined(occ);
    if |d| == 0 then Undefined
    else if |d| == 1 then Str(d[0].value)
    else Arr(d)
  }

  lemma {:induction false} FromFirstDefinedAppend(occ: seq<Option<string>>, v: Option<string>)
    ensures FromFirstDefined(occ + [v]) ==
              if FromFirstDefined(occ) == [] then FromFirstDefined([v]) else FromFirstDefined(occ) + [v]
    decreases |occ|
  {
    if |occ| > 0 {
      assert (occ + [v])[1..] == occ[1..] + [v];
      FromFirstDefinedAppend(occ[1..], v);
    }
  }

  /** One more occurrence changes the reference value exactly as `Promote` does. */
  lemma SettledStep(occ: seq<Option<string>>, v: Option<string>)
    ensures Settled(occ + [v]) == Promote(Settled(occ), v)
  {
    FromFirstDefinedAppend(occ, v);
    var d := FromFirstDefined(occ);
    if |d| == 1 {
      assert d == [Some(d[0].value)];
    }
  }

  /**
   `r` is what the reference predicts for `pieces`: an error exactly when
   some piece's key is inherited (naming such a key), and otherwise an
   object holding every piece key, each with its settled value.
   */
  ghost predicate MatchesReference(r: ParamsResult, pieces: seq<string>, inherited: set<string>) {
    && (r.PushOnNonArray? <==> exists i :: 0 <= i < |pieces| && PieceKey(pieces[i]) in inherited)
    && (r.PushOnNonArray? ==> r.key in inherited && r.key in PieceKeys(pieces))
    && (r.Parsed? ==>
          && r.params.Keys == PieceKeys(pieces)
          && forall k :: k in r.params ==> r.params[k] == Settled(Occurrences(pieces, k)))
  }

  lemma PieceKeysSnoc(prefix: seq<string>, last: string)
    ensures PieceKeys(prefix + [last]) == PieceKeys(prefix) + {PieceKey(last)}
  {
    var pieces := prefix + [last];
    forall i | 0 <= i < |pieces| ensures PieceKey(pieces[i]) in PieceKeys(prefix) + {PieceKey(last)} {
      if i < |prefix| {
        assert pieces[i] == prefix[i];
        assert PieceKey(prefix[i]) in PieceKeys(prefix);
      }
    }
    forall k | k in PieceKeys(prefix) ensures k in PieceKeys(pieces) {
      var i :| 0 <= i < |prefix| && PieceKey(prefix[i]) == k;
      assert pieces[i] == prefix[i];
    }
    assert PieceKey(pieces[|prefix|]) == PieceKey(last);
  }

  lemma OccurrencesSnoc(prefix: seq<string>, last: string, k: string)
    ensures Occurrences(prefix + [last], k)
            == Occurrences(prefix, k) + (if PieceKey(last) == k then [PieceValue(last)] else [])
  {
    assert (prefix + [last])[..|prefix|] == prefix;
  }

  /** Once the loop has thrown, one more piece leaves it thrown. */
  lemma AddPieceAfterError(r: ParamsResult, prefix: seq<string>, last: string, inherited: set<string>)
    requires r.PushOnNonArray? && MatchesReference(r, prefix, inherited)
    ensures MatchesReference(AddPiece(r, last, inherited), prefix + [last], inherited)
  {
    var pieces := prefix + [last];
    PieceKeysSnoc(prefix, last);
    var i :| 0 <= i < |prefix| && PieceKey(prefix[i]) in inherited;
    assert pieces[i] == prefix[i];
  }

  /** A piece whose key is already stored updates that key as the reference does. */
  lemma AddPieceToStored(r: ParamsResult, prefix: seq<string>, last: string, inherited: set<string>)
    requires r.Parsed? && PieceKey(last) in r.params && MatchesReference(r, prefix, inherited)
    ensures MatchesReference(AddPiece(r, last, inherited), prefix + [last], inherited)
  {
    var pieces := prefix + [last];
    var k := PieceKey(last);
    var t := AddPiece(r, last, inherited);
    PieceKeysSnoc(prefix, last);
    var m := r.params;
    assert t.params == m[k := Promote(m[k], PieceValue(last))];
    forall k' | k' in t.params ensures t.params[k'] == Settled(Occurrences(pieces, k')) {
      OccurrencesSnoc(prefix, last, k');
      if k' == k {
        SettledStep(Occurrences(prefix, k), PieceValue(last));
        assert Occurrences(pieces, k) == Occurrences(prefix, k) + [PieceValue(last)];
        assert m[k] == Settled(Occurrences(prefix, k));
      } else {
        assert Occurrences(pieces, k') == Occurrences(prefix, k') + [] == Occurrences(prefix, k');
        assert k' in m;
        assert m[k'] == Settled(Occurrences(prefix, k'));
        assert t.params[k'] == m[k'];
      }
    }
    var j :| 0 <= j < |prefix| && PieceKey(prefix[j]) == k;
    forall i | 0 <= i < |pieces| ensures PieceKey(pieces[i]) !in inherited {
      if i < |prefix| {
        assert pieces[i] == prefix[i];
      } else {
        assert pieces[i] == last;
      }
    }
  }

  /** An inherited key that is not stored makes the loop throw, naming the key. */
  lemma AddPieceInherited(r: ParamsResult, prefix: seq<string>, last: string, inherited: set<string>)
    requires r.Parsed? && PieceKey(last) !in r.params && PieceKey(last) in inherited
    requires MatchesReference(r, prefix, inherited)
    ensures MatchesReference(AddPiece(r, last, inherited), prefix + [last], inherited)
  {
    var pieces := prefix + [last];
    PieceKeysSnoc(prefix, last);
    assert PieceKey(pieces[|prefix|]) in inherited;
  }

  /** A new, non-inherited key is stored with its value, as the reference predicts. */
  lemma AddPieceFresh(r: ParamsResult, prefix: seq<string>, last: string, inherited: set<string>)
    requires r.Parsed? && PieceKey(last) !in r.params && PieceKey(last) !in inherited
    requires MatchesReference(r, prefix, inherited)
    ensures MatchesReference(AddPiece(r, last, inherited), prefix + [last], inherited)
  {
    var pieces := prefix + [last];
    var k := PieceKey(last);
    var t := AddPiece(r, last, inherited);
    PieceKeysSnoc(prefix, last);
    var m := r.params;
    assert t.params == m[k := Assigned(PieceValue(last))];
    forall k' | k' in t.params ensures t.params[k'] == Settled(Occurrences(pieces, k')) {
      OccurrencesSnoc(prefix, last, k');
      if k' == k {
        OccurrencesOfAbsentKey(prefix, k);
        SettledStep([], PieceValue(last));
        assert Occurrences(pieces, k) == [] + [PieceValue(last)] == [PieceValue(last)];
        assert Settled([PieceValue(last)]) == Assigned(PieceValue(last));
      } else {
        assert Occurrences(pieces, k') == Occurrences(prefix, k') + [] == Occurrences(prefix, k');
        assert k' in m;
        assert m[k'] == Settled(Occurrences(prefix, k'));
        assert t.params[k'] == m[k'];
      }
    }
    forall i | 0 <= i < |pieces| ensures PieceKey(pieces[i]) !in inherited {
      if i < |prefix| {
        assert pieces[i] == prefix[i];
      } else {
        assert pieces[i] == last;
      }
    }
  }

  /** One loop iteration keeps the result in step with the reference. */
  lemma AddPieceMatches(r: ParamsResult, prefix: seq<string>, last: string, inherited: set<string>)
    requires MatchesReference(r, prefix, inherited)
    ensures MatchesReference(AddPiece(r, last, inherited), prefix + [last], inherited)
  {
    var k := PieceKey(last);
    if r.PushOnNonArray? {
      AddPieceAfterError(r, prefix, last, inherited);
    } else if k in r.params {
      AddPieceToStored(r, prefix, last, inherited);
    } else if k in inherited {
      AddPieceInherited(r, prefix, last, inherited);
    } else {
      AddPieceFresh(r, prefix, last, inherited);
    }
  }

  /** The loop agrees with the reference on every list of pieces. */
  lemma {:induction false} AddPiecesMatchesReference(pieces: seq<string>, inherited: set<string>)
    ensures MatchesReference(AddPieces(pieces, inherited), pieces, inherited)
    decreases |pieces|
  {
    if |pieces| > 0 {
      var prefix := pieces[..|pieces| - 1];
      var last := pieces[|pieces| - 1];
      AddPiecesMatchesReference(prefix, inherited);
      AddPieceMatches(AddPieces(prefix, inherited), prefix, last, inherited);
      assert prefix + [last] == pieces;
    }
  }

  /** A key no piece has occurs nowhere. */
  lemma {:induction false} OccurrencesOfAbsentKey(pieces: seq<string>, k: string)
    requires k !in PieceKeys(pieces)
    ensures Occurrences(pieces, k) == []
    decreases |pieces|
  {
    if |pieces| > 0 {
      var prefix := pieces[..|pieces| - 1];
      assert PieceKey(pieces[|pieces| - 1]) in PieceKeys(pieces);
      forall i | 0 <= i < |prefix| ensures PieceKey(prefix[i]) != k {
        assert prefix[i] == pieces[i];
        assert PieceKey(pieces[i]) in PieceKeys(pieces);
      }
      OccurrencesOfAbsentKey(prefix, k);
    }
  }

  /** Every array a parsed result holds has at least two items: arrays arise only from repeats. */
  lemma ArraysHaveTwoItems(params: map<string, ParamValue>, pieces: seq<string>)
    requires forall k :: k in params ==> params[k] == Settled(Occurrences(pieces, k))
    ensures forall k :: k in params && params[k].Arr? ==> |params[k].items| >= 2
  {
  }

  /** `getParams` on a whole search string agrees with the reference. */
  lemma GetParamsMatchesReference(search: string)
    ensures MatchesReference(GetParams(search), Split(QueryText(search), '&'), InheritedKeys)
  {
    AddPiecesMatchesReference(Split(QueryText(search), '&'), InheritedKeys);
  }

  /** The loop on a list with one more piece is one more iteration. */
  lemma AddPiecesSnoc(prefix: seq<string>, last: string, inherited: set<string>)
    ensures AddPieces(prefix + [last], inherited) == AddPiece(AddPieces(prefix, inherited), last, inherited)
  {
    assert (prefix + [last])[..|prefix|] == prefix;
  }

  /** Two pieces with the same key make an array of both values. */
  lemma TwoValuesLoop(px: string, py: string, a: string, x: string, y: string, inherited: set<string>)
    requires PieceKey(px) == a && PieceValue(px) == Some(x)
    requires PieceKey(py) == a && PieceValue(py) == Some(y)
    requires a !in inherited
    ensures AddPieces([px, py], inherited) == Parsed(map[a := Arr([Some(x), Some(y)])])
  {
    var r0 := AddPieces([], inherited);
    assert r0 == Parsed(map[]);
    assert [px][..0] == [];
    var r1 := AddPieces([px], inherited);
    assert r1 == AddPiece(r0, px, inherited);
    assert r1 == Parsed(map[a := Str(x)]);
    assert [px, py][..1] == [px];
    assert AddPieces([px, py], inherited) == AddPiece(r1, py, inherited);
    assert r1.params[a := Promote(Str(x), Some(y))] == map[a := Arr([Some(x), Some(y)])];
  }

  /**
   The loop on pieces `a=x`, `a=y`, `b`, `a=z` (given by their keys and
   values) for distinct, non-inherited keys: `a` collects all three values
   in order and `b` is present but undefined.
   */
  lemma RepeatedKeyLoop(px: string, py: string, pb: string, pz: string,
                        a: string, b: string, x: string, y: string, z: string, inherited: set<string>)
    requires PieceKey(px) == a && PieceValue(px) == Some(x)
    requires PieceKey(py) == a && PieceValue(py) == Some(y)
    requires PieceKey(pb) == b && PieceValue(pb) == None
    requires PieceKey(pz) == a && PieceValue(pz) == Some(z)
    requires a != b && a !in inherited && b !in inherited
    ensures AddPieces([px, py, pb, pz], inherited) ==
              Parsed(map[a := Arr([Some(x), Some(y), Some(z)]), b := Undefined])
  {
    TwoValuesLoop(px, py, a, x, y, inherited);
    var r2 := AddPieces([px, py], inherited);
    AddPiecesSnoc([px, py], pb, inherited);
    assert [px, py] + [pb] == [px, py, pb];
    var r3 := AddPieces([px, py, pb], inherited);
    assert r3 == Parsed(map[a := Arr([Some(x), Some(y)]), b := Undefined]);
    AddPiecesSnoc([px, py, pb], pz, inherited);
    assert [px, py, pb] + [pz] == [px, py, pb, pz];
    assert [Some(x), Some(y)] + [Some(z)] == [Some(x), Some(y), Some(z)];
    assert r3.params[a := Promote(r3.params[a], Some(z))]
        == map[a := Arr([Some(x), Some(y), Some(z)]), b := Undefined];
  }

  /** A piece built from `&`-free parts has no `&`. */
  lemma PieceFree(k: string, v: string)
    requires '&' !in k && '&' !in v
    ensures '&' !in k + "=" + v
  {
    assert k + "=" + v == k + ['='] + v;
  }

  /** Joining four pieces with `&` writes them out with `&` between neighbours. */
  lemma JoinFour(p1: string, p2: string, p3: string, p4: string)
    ensures Join([p1, p2, p3, p4], "&") == p1 + "&" + p2 + "&" + p3 + "&" + p4
  {
    assert [p1, p2, p3, p4][1..] == [p2, p3, p4];
    assert [p2, p3, p4][1..] == [p3, p4];
    assert [p3, p4][1..] == [p4];
    assert Join([p3, p4], "&") == p3 + "&" + p4;
    assert Join([p2, p3, p4], "&") == p2 + "&" + Join([p3, p4], "&");
    assert Join([p1, p2, p3, p4], "&") == p1 + "&" + Join([p2, p3, p4], "&");
  }

  /** Four `&`-free pieces joined with `&` split back into those pieces. */
  lemma SplitFour(p1: string, p2: string, p3: string, p4: string)
    requires '&' !in p1 && '&' !in p2 && '&' !in p3 && '&' !in p4
    ensures Split(p1 + "&" + p2 + "&" + p3 + "&" + p4, '&') == [p1, p2, p3, p4]
  {
    var pieces := [p1, p2, p3, p4];
    forall i | 0 <= i < |pieces| ensures '&' !in pieces[i] {
      if i == 0 { assert pieces[i] == p1; }
      else if i == 1 { assert pieces[i] == p2; }
      else if i == 2 { assert pieces[i] == p3; }
      else { assert pieces[i] == p4; }
    }
    SplitJoin(pieces, '&');
    JoinFour(p1, p2, p3, p4);
  }

  /** The query text of `?a=x&a=y&b&a=z` is its four pieces joined with `&`. */
  lemma SearchText(a: string, b: string, x: string, y: string, z: string)
    ensures QueryText("?" + a + "=" + x + "&" + a + "=" + y + "&" + b + "&" + a + "=" + z)
            == (a + "=" + x) + "&" + (a + "=" + y) + "&" + b + "&" + (a + "=" + z)
  {
    var query := (a + "=" + x) + "&" + (a + "=" + y) + "&" + b + "&" + (a + "=" + z);
    assert "?" + a + "=" + x + "&" + a + "=" + y + "&" + b + "&" + a + "=" + z == "?" + query;
    QueryTextAfterMark(query);
  }

  /** The query text of `?` followed by `q` is `q`. */
  lemma QueryTextAfterMark(q: string)
    ensures QueryText("?" + q) == q
  {
    assert ("?" + q)[1..] == q;
  }

  /** The query text of `?a=x&a=y&b&a=z` splits into its four pieces. */
  lemma SearchPieces(a: string, b: string, x: string, y: string, z: string)
    requires '&' !in a && '&' !in b && '&' !in x && '&' !in y && '&' !in z
    ensures Split(QueryText("?" + a + "=" + x + "&" + a + "=" + y + "&" + b + "&" + a + "=" + z), '&')
            == [a + "=" + x, a + "=" + y, b, a + "=" + z]
  {
    PieceFree(a, x);
    PieceFree(a, y);
    PieceFree(a, z);
    SearchText(a, b, x, y, z);
    SplitFour(a + "=" + x, a + "=" + y, b, a + "=" + z);
  }

  /**
   `getParams` on `?a=x&a=y&b&a=z`, for keys and values free of `&` and
   `=`, distinct keys and keys `{}` does not inherit: `a` keeps all three
   values in order and `b`, written without `=`, is present but undefined.
   */
  lemma RepeatedKeyQuery(a: string, b: string, x: string, y: string, z: string)
    requires '=' !in a && '=' !in b && '=' !in x && '=' !in y && '=' !in z
    requires '&' !in a && '&' !in b && '&' !in x && '&' !in y && '&' !in z
    requires a != b && a !in InheritedKeys && b !in InheritedKeys
    ensures GetParams("?" + a + "=" + x + "&" + a + "=" + y + "&" + b + "&" + a + "=" + z) ==
              Parsed(map[a := Arr([Some(x), Some(y), Some(z)]), b := Undefined])
  {
    SearchPieces(a, b, x, y, z);
    PieceOf(a, x);
    PieceOf(a, y);
    PieceOf(a, z);
    PieceWithoutValue(b);
    RepeatedKeyLoop(a + "=" + x, a + "=" + y, b, a + "=" + z, a, b, x, y, z, InheritedKeys);
  }

  /** A piece `k=v` with no `=` in `k` or `v` has key `k` and value `v`. */
  lemma PieceOf(k: string, v: string)
    requires '=' !in k && '=' !in v
    ensures PieceKey(k + "=" + v) == k && PieceValue(k + "=" + v) == Some(v)
  {
    var piece := k + "=" + v;
    assert piece == k + ['='] + v;
    CharIndexAfterFree(k, '=', v);
    SplitAtFirst(piece, '=');
    assert piece[..|k|] == k;
    assert piece[|k| + 1..] == v;
    assert Split(v, '=') == [v];
  }

  /** A piece without `=` is all key, with an undefined value. */
  lemma PieceWithoutValue(piece: string)
    requires '=' !in piece
    ensures PieceKey(piece) == piece && PieceValue(piece) == None
  {
    assert Split(piece, '=') == [piece];
  }
}

=== FILE: provider.dfy ===
/**
 `Roku.Provider` (roku.js): finds an appliance by probing every host
 `192.168.1.<b>` of a byte range at once, and hands out a controller.

 Probes run concurrently only in the sense that their responses arrive, one
 at a time, in an order nobody controls. A session therefore records every
 probe issued (with a stable index), which of them have been answered, and
 every callback made; an event trace drives it, and any interleaving of
 probe answers is one trace.

 As written, the winning probe's `this.looking_ = false` runs with `this`
 bound to the global object (the callback is invoked as a plain function),
 so the provider's own flag is never cleared, and no probe ever stores its
 controller in `controller_`. `ProbeComplete` models exactly that;
 `ProbeCompleteCorrected` models the evidently intended behaviour.
 */
module RokuProvider {
  import opened Wrappers
  import opened Strings
  import opened RokuController

  const SubnetPrefix := "192.168.1."
  const DefaultStartByte := 100
  const DefaultEndByte := 255

  /** The provider's fields: the probed byte range, `controller_` and `looking_`. */
  datatype Provider = Provider(startByte: int, endByte: int, controller: Option<Controller>, looking: bool)

  /**
   `new Roku.Provider(opt_startByte, opt_endByte)`: an absent or zero byte
   is falsy and takes its default; nothing is cached and nobody is looking.
   */
  function NewProvider(optStart: Option<int>, optEnd: Option<int>): (p: Provider)
    ensures p.controller == None && !p.looking
    ensures p.startByte != 0 && p.endByte != 0
    ensures optStart.None? || optStart.value == 0 ==> p.startByte == DefaultStartByte
    ensures optEnd.None? || optEnd.value == 0 ==> p.endByte == DefaultEndByte
    ensures optStart.Some? && optStart.value != 0 ==> p.startByte == optStart.value
    ensures optEnd.Some? && optEnd.value != 0 ==> p.endByte == optEnd.value
  {
    Provider(
      if optStart.Some? && optStart.value != 0 then optStart.value else DefaultStartByte,
      if optEnd.Some? && optEnd.value != 0 then optEnd.value else DefaultEndByte,
      None, false)
  }

  /** The host probed for one byte: `192.168.1.` and the byte's decimal text. */
  function ProbeHost(b: int): string {
    SubnetPrefix + Decimal(b)
  }

  /** The byte a subnet host names: its text after `192.168.1.` read as a decimal, if it is one. */
  function ByteOfHost(h: string): Option<int> {
    if |h| < |SubnetPrefix| || h[..|SubnetPrefix|] != SubnetPrefix then None
    else
      var t := h[|SubnetPrefix|..];
      if IsDigits(t) || (|t| > 1 && t[0] == '-' && IsDigits(t[1..])) then Some(ParseDecimal(t)) else None
  }

  /** The probed host lies in the subnet, and the probed byte reads back from it. */
  lemma ProbeHostByte(b: int)
    ensures |ProbeHost(b)| > |SubnetPrefix| && ProbeHost(b)[..|SubnetPrefix|] == SubnetPrefix
    ensures ByteOfHost(ProbeHost(b)) == Some(b)
  {
    var h := ProbeHost(b);
    assert h[|SubnetPrefix|..] == Decimal(b);
    DecimalRoundTrip(b);
  }

  /**
   One probe issued by `getController_`: the fresh controller for its host,
   the listing URL its `getApps` requested, and the caller it answers.
   */
  datatype Probe<C> = Probe(hostByte: int, controller: Controller, url: string, caller: C)

  /** One `callback(controller)` made by the provider. */
  datatype Delivery<C> = Delivery(caller: C, controller: Controller)

  /**
   The provider with its history: probes issued (index = issue order), the
   indices already answered, the callbacks made, and the `looking_` property
   of the global object, which the winning probe writes.
   */
  datatype Session<C> = Session(provider: Provider, probes: seq<Probe<C>>, answered: set<nat>,
                                delivered: seq<Delivery<C>>, globalLooking: Option<bool>)

  function NewSession<C>(p: Provider): (s: Session<C>)
    ensures WellFormed(s)
  {
    Session(p, [], {}, [], None)
  }

  /** Only issued probes can have been answered. */
  predicate WellFormed<C>(s: Session<C>) {
    forall k :: k in s.answered ==> k < |s.probes|
  }

  /** The lookup key of a probed host is the probed byte itself. */
  lemma ProbeLookupKey(b: int)
    ensures LookupKey(ProbeHost(b)) == Decimal(b)
  {
    var d := Decimal(b);
    assert ProbeHost(b) == "192.168.1" + "." + d;
    forall i | 0 <= i < |d|
      ensures !IsLineTerminator(d[i]) && d[i] != '.'
    {
      if b < 0 && i > 0 {
        assert d[i] == d[1..][i - 1];
      }
    }
    LookupKeyAfterLastDot("192.168.1", d);
  }

  /**
   `getController_(b, callback)`: a fresh controller for `192.168.1.<b>` on
   the default port, whose listing request asks for `n=<b>`.
   */
  function MakeProbe<C>(b: int, baseUrl: string, caller: C): (p: Probe<C>)
    ensures p.hostByte == b && p.caller == caller
    ensures p.controller == Controller(ProbeHost(b), DefaultPort, None)
  {
    var c := NewController(Some(ProbeHost(b)), None);
    Probe(b, c, LookupUrl(baseUrl, c.host), caller)
  }

  /** A probe asks the lookup service for `n=<b>`, the probed byte. */
  lemma ProbeUrl<C>(b: int, baseUrl: string, caller: C)
    ensures MakeProbe(b, baseUrl, caller).url == baseUrl + "apps.php?n=" + Decimal(b)
  {
    ProbeLookupKey(b);
  }

  /**
   The probes of the loop `for (i = from; i <= to; i++)`: one per byte, in
   ascending order, and none when `from > to`.
   */
  function Probes<C>(from: int, to: int, baseUrl: string, caller: C): (r: seq<Probe<C>>)
    ensures |r| == if to < from then 0 else to - from + 1
    ensures forall k :: 0 <= k < |r| ==> r[k] == MakeProbe(from + k, baseUrl, caller)
  {
    var n: nat := if to < from then 0 else to - from + 1;
    var r := seq(n, k requires 0 <= k < n => MakeProbe(from + k, baseUrl, caller));
    assert |r| == n;
    r
  }

  /** The number of probes `getController` issues on a miss. */
  function RangeSize(p: Provider): nat {
    if p.endByte < p.startByte then 0 else p.endByte - p.startByte + 1
  }

  /**
   `getController(callback)`: a cached controller is handed back at once and
   nothing is probed; otherwise `looking_` is set and one probe per byte of
   the range is issued, in ascending order.
   */
  function GetController<C>(s: Session<C>, baseUrl: string, caller: C): (t: Session<C>)
    ensures t.answered == s.answered && t.globalLooking == s.globalLooking
    ensures s.provider.controller.Some? ==>
              t.provider == s.provider && t.probes == s.probes
              && t.delivered == s.delivered + [Delivery(caller, s.provider.controller.value)]
    ensures s.provider.controller.None? ==>
              t.provider == s.provider.(looking := true) && t.delivered == s.delivered
              && |t.probes| == |s.probes| + RangeSize(s.provider)
              && t.probes == s.probes + Probes(s.provider.startByte, s.provider.endByte, baseUrl, caller)
  {
    match s.provider.controller
    case Some(c) => s.(delivered := s.delivered + [Delivery(caller, c)])
    case None =>
      var issued := Probes(s.provider.startByte, s.provider.endByte, baseUrl, caller);
      s.(provider := s.provider.(looking := true), probes := s.probes + issued)
  }

  /** Whether probe `k` exists and has not yet been answered. */
  predicate Unanswered<C>(s: Session<C>, k: nat) {
    k < |s.probes| && k !in s.answered
  }

  /** Whether a listing body makes its host a candidate appliance. */
  predicate ValidListing(x: XmlResponse) {
    AppsFromXml(x).Some?
  }

  /**
   The listing response of probe `k` arrives, as written: the probe's
   controller caches the list, and the caller is called back when the list
   parsed and the provider is still `looking_`. The flag cleared is the
   global object's, so the provider itself is never changed. Answers to
   unknown or already answered probes change nothing.
   */
  function ProbeComplete<C>(s: Session<C>, k: nat, x: XmlResponse): (t: Session<C>)
    ensures t.provider == s.provider && t.probes == s.probes
    ensures t.answered == if Unanswered(s, k) then s.answered + {k} else s.answered
    ensures |t.delivered| == |s.delivered| + 1 <==>
              Unanswered(s, k) && ValidListing(x) && s.provider.looking
    ensures |t.delivered| != |s.delivered| + 1 ==> t.delivered == s.delivered
    ensures |t.delivered| == |s.delivered| + 1 ==>
              t.delivered[..|s.delivered|] == s.delivered
              && t.delivered[|s.delivered|] == Delivery(s.probes[k].caller, Receive(s.probes[k].controller, x).0)
              && t.delivered[|s.delivered|].controller.host == s.probes[k].controller.host
              && t.globalLooking == Some(false)
  {
    if !Unanswered(s, k) then s
    else
      var probe := s.probes[k];
      var (c, apps) := Receive(probe.controller, x);
      var s' := s.(answered := s.answered + {k});
      if apps.None? then s'
      else if !s.provider.looking then s'
      // `if (!apps) return;` never fires here: a parsed list is an array, and arrays are truthy.
      else
        var t := s'.(delivered := s.delivered + [Delivery(probe.caller, c)], globalLooking := Some(false));
        assert t.delivered[..|s.delivered|] == s.delivered;
        t
  }

  /**
   The evidently intended probe completion: the winner clears the
   provider's own `looking_` and caches its controller, so later answers
   are ignored and later `getController` calls are served from the cache.
   */
  function ProbeCompleteCorrected<C>(s: Session<C>, k: nat, x: XmlResponse): (t: Session<C>)
    ensures t.probes == s.probes
    ensures |t.delivered| == |s.delivered| + 1 <==>
              Unanswered(s, k) && ValidListing(x) && s.provider.looking
    ensures |t.delivered| != |s.delivered| + 1 ==> t.delivered == s.delivered && t.provider == s.provider
    ensures |t.delivered| == |s.delivered| + 1 ==>
              t.delivered[..|s.delivered|] == s.delivered
              && !t.provider.looking
              && t.provider.controller == Some(t.delivered[|s.delivered|].controller)
              && t.delivered[|s.delivered|].controller.host == s.probes[k].controller.host
  {
    if !Unanswered(s, k) then s
    else
      var probe := s.probes[k];
      var (c, apps) := Receive(probe.controller, x);
      var s' := s.(answered := s.answered + {k});
      if apps.None? || !s.provider.looking then s'
      else
        var t := s'.(provider := s.provider.(looking := false, controller := Some(c)),
                     delivered := s.delivered + [Delivery(probe.caller, c)]);
        assert t.delivered[..|s.delivered|] == s.delivered;
        t
  }

  /** `setController(controller)`: caches the given controller. */
  function SetController<C>(s: Session<C>, c: Controller): (t: Session<C>)
    ensures t.provider.controller == Some(c)
    ensures t.provider.looking == s.provider.looking
    ensures t.provider.startByte == s.provider.startByte && t.provider.endByte == s.provider.endByte
    ensures t.probes == s.probes && t.answered == s.answered && t.delivered == s.delivered
    ensures t.globalLooking == s.globalLooking
  {
    s.(provider := s.provider.(controller := Some(c)))
  }

  /** `reset()`: forgets the cached controller and marks the provider as looking. */
  function Reset<C>(s: Session<C>): (t: Session<C>)
    ensures t.provider.controller == None && t.provider.looking
    ensures t.provider.startByte == s.provider.startByte && t.provider.endByte == s.provider.endByte
    ensures t.probes == s.probes && t.answered == s.answered && t.delivered == s.delivered
  {
    s.(provider := s.provider.(controller := None, looking := true))
  }

  /** What can happen to a provider: its three operations, or a probe answer arriving. */
  datatype Event<C> =
    | Get(caller: C)
    | Set(controller: Controller)
    | ResetProvider
    | Answer(index: nat, body: XmlResponse)

  /** Which probe-completion behaviour a run uses. */
  datatype Build = AsWritten | Corrected

  function Step<C>(s: Session<C>, baseUrl: string, e: Event<C>, build: Build): Session<C> {
    match e
    case Get(caller) => GetController(s, baseUrl, caller)
    case Set(c) => SetController(s, c)
    case ResetProvider => Reset(s)
    case Answer(k, x) =>
      if build == AsWritten then ProbeComplete(s, k, x) else ProbeCompleteCorrected(s, k, x)
  }

  function Run<C>(s: Session<C>, baseUrl: string, events: seq<Event<C>>, build: Build): Session<C>
    decreases |events|
  {
    if |events| == 0 then s else Run(Step(s, baseUrl, events[0], build), baseUrl, events[1..], build)
  }

  predicate IsAnswer<C>(e: Event<C>) {
    e.Answer?
  }

  /**
   As written, probe answers never touch the provider: whatever arrives, in
   whatever order, `controller_` and `looking_` keep their values.
   */
  lemma {:induction false} AnswersLeaveProvider<C>(s: Session<C>, baseUrl: string, events: seq<Event<C>>)
    requires forall i :: 0 <= i < |events| ==> IsAnswer(events[i])
    ensures Run(s, baseUrl, events, AsWritten).provider == s.provider
    ensures Run(s, baseUrl, events, AsWritten).probes == s.probes
    decreases |events|
  {
    if |events| > 0 {
      var s' := Step(s, baseUrl, events[0], AsWritten);
      assert IsAnswer(events[0]);
      assert forall i :: 0 <= i < |events[1..]| ==> IsAnswer(events[1..][i]) by {
        forall i | 0 <= i < |events[1..]| ensures IsAnswer(events[1..][i]) {
          assert events[1..][i] == events[i + 1];
        }
      }
      AnswersLeaveProvider(s', baseUrl, events[1..]);
    }
  }

  /**
   Only `setController` caches a controller: in a trace without it, the
   cached controller is the initial one, or nothing once a reset happened.
   */
  lemma {:induction false} OnlySetCaches<C>(s: Session<C>, baseUrl: string, events: seq<Event<C>>)
    requires forall i :: 0 <= i < |events| ==> !events[i].Set?
    ensures Run(s, baseUrl, events, AsWritten).provider.controller in {s.provider.controller, None}
    decreases |events|
  {
    if |events| > 0 {
      var s' := Step(s, baseUrl, events[0], AsWritten);
      assert s'.provider.controller in {s.provider.controller, None};
      forall i | 0 <= i < |events[1..]| ensures !events[1..][i].Set? {
        assert events[1..][i] == events[i + 1];
      }
      OnlySetCaches(s', baseUrl, events[1..]);
    }
  }

  /**
   A trace of answers to distinct probes, all issued and none answered yet:
   each network response fires once.
   */
  predicate FreshAnswers<C>(s: Session<C>, events: seq<Event<C>>) {
    && (forall i :: 0 <= i < |events| ==> events[i].Answer? && Unanswered(s, events[i].index))
    && (forall i, j :: 0 <= i < j < |events| ==> events[i].index != events[j].index)
  }

  /** The number of answers in a trace whose body is a valid listing. */
  function ValidAnswers<C>(events: seq<Event<C>>): nat
    decreases |events|
  {
    if |events| == 0 then 0
    else (if events[0].Answer? && ValidListing(events[0].body) then 1 else 0) + ValidAnswers(events[1..])
  }

  lemma FreshAnswersTail<C>(s: Session<C>, events: seq<Event<C>>, t: Session<C>)
    requires |events| > 0 && FreshAnswers(s, events)
    requires t.probes == s.probes && t.answered == s.answered + {events[0].index}
    ensures FreshAnswers(t, events[1..])
  {
    forall i | 0 <= i < |events[1..]|
      ensures events[1..][i].Answer? && Unanswered(t, events[1..][i].index)
    {
      assert events[1..][i] == events[i + 1];
      assert events[0].index != events[i + 1].index;
    }
    forall i, j | 0 <= i < j < |events[1..]|
      ensures events[1..][i].index != events[1..][j].index
    {
      assert events[1..][i] == events[i + 1] && events[1..][j] == events[j + 1];
    }
  }

  /**
   As written, while the provider is looking every valid answer fires the
   callback: the number of callbacks is the number of valid answers, so two
   hosts answering with listings produce two callbacks for one request.
   */
  lemma {:induction false} EveryValidAnswerDelivers<C>(s: Session<C>, baseUrl: string, events: seq<Event<C>>)
    requires s.provider.looking
    requires FreshAnswers(s, events)
    ensures |Run(s, baseUrl, events, AsWritten).delivered| == |s.delivered| + ValidAnswers(events)
    decreases |events|
  {
    if |events| > 0 {
      var s' := Step(s, baseUrl, events[0], AsWritten);
      assert s' == ProbeComplete(s, events[0].index, events[0].body);
      FreshAnswersTail(s, events, s');
      EveryValidAnswerDelivers(s', baseUrl, events[1..]);
    }
  }

  /** Whether `d` names the host of a probe some event of `events` answered with a valid listing. */
  ghost predicate FromValidAnswer<C>(d: Delivery<C>, probes: seq<Probe<C>>, events: seq<Event<C>>) {
    exists i :: 0 <= i < |events| && events[i].Answer? && events[i].index < |probes|
      && ValidListing(events[i].body)
      && d.controller.host == probes[events[i].index].controller.host
  }

  lemma FromValidAnswerTail<C>(d: Delivery<C>, probes: seq<Probe<C>>, events: seq<Event<C>>)
    requires |events| > 0 && FromValidAnswer(d, probes, events[1..])
    ensures FromValidAnswer(d, probes, events)
  {
    var i :| 0 <= i < |events[1..]| && events[1..][i].Answer? && events[1..][i].index < |probes|
             && ValidListing(events[1..][i].body)
             && d.controller.host == probes[events[1..][i].index].controller.host;
    assert events[1..][i] == events[i + 1];
  }

  /**
   Whatever the arrival order, every callback made during a trace of
   answers names the host of a probe that answered with a valid listing.
   */
  lemma {:induction false} DeliveriesComeFromValidAnswers<C>(s: Session<C>, baseUrl: string, events: seq<Event<C>>, build: Build)
    requires forall i :: 0 <= i < |events| ==> IsAnswer(events[i])
    ensures var t := Run(s, baseUrl, events, build);
            && |t.delivered| >= |s.delivered|
            && t.delivered[..|s.delivered|] == s.delivered
            && t.probes == s.probes
            && forall j :: |s.delivered| <= j < |t.delivered| ==> FromValidAnswer(t.delivered[j], s.probes, events)
    decreases |events|
  {
    if |events| > 0 {
      var e := events[0];
      var s' := Step(s, baseUrl, e, build);
      forall i | 0 <= i < |events[1..]| ensures IsAnswer(events[1..][i]) {
        assert events[1..][i] == events[i + 1];
      }
      DeliveriesComeFromValidAnswers(s', baseUrl, events[1..], build);
      var t := Run(s, baseUrl, events, build);
      assert t == Run(s', baseUrl, events[1..], build);
      assert s'.probes == s.probes;
      forall j | |s.delivered| <= j < |t.delivered|
        ensures FromValidAnswer(t.delivered[j], s.probes, events)
      {
        if j < |s'.delivered| {
          assert j == |s.delivered|;
          assert t.delivered[j] == s'.delivered[j];
          assert 0 < |events| && events[0].index < |s.probes| && ValidListing(events[0].body);
        } else {
          FromValidAnswerTail(t.delivered[j], s.probes, events);
        }
      }
    }
  }

  /** With distinct indices and only index `w` valid, at most the one answer to `w` counts. */
  lemma {:induction false} SingleValidCount<C>(events: seq<Event<C>>, w: nat)
    requires forall i :: 0 <= i < |events| ==> events[i].Answer?
    requires forall i, j :: 0 <= i < j < |events| ==> events[i].index != events[j].index
    requires forall i :: 0 <= i < |events| ==> (ValidListing(events[i].body) <==> events[i].index == w)
    ensures ValidAnswers(events) == if exists i :: 0 <= i < |events| && events[i].index == w then 1 else 0
    decreases |events|
  {
    if |events| > 0 {
      var tail := events[1..];
      assert forall i :: 0 <= i < |tail| ==> tail[i] == events[i + 1];
      SingleValidCount(tail, w);
      if events[0].index == w {
        assert !exists i :: 0 <= i < |tail| && tail[i].index == w;
      } else {
        assert (exists i :: 0 <= i < |events| && events[i].index == w)
           <==> (exists i :: 0 <= i < |tail| && tail[i].index == w) by {
          if exists i :: 0 <= i < |events| && events[i].index == w {
            var i :| 0 <= i < |events| && events[i].index == w;
            assert i > 0 && tail[i - 1].index == w;
          }
        }
      }
    }
  }

  /**
   Whatever the arrival order, when exactly one probed host answers with a
   listing and it does answer, the caller is called back exactly once, with
   that host's controller.
   */
  lemma SingleValidAnswerWins<C>(s: Session<C>, baseUrl: string, events: seq<Event<C>>, w: nat)
    requires s.provider.looking && s.delivered == []
    requires FreshAnswers(s, events)
    requires forall i :: 0 <= i < |events| ==> (ValidListing(events[i].body) <==> events[i].index == w)
    requires exists i :: 0 <= i < |events| && events[i].index == w
    ensures var t := Run(s, baseUrl, events, AsWritten);
            |t.delivered| == 1 && t.delivered[0].controller.host == s.probes[w].controller.host
  {
    var t := Run(s, baseUrl, events, AsWritten);
    SingleValidCount(events, w);
    EveryValidAnswerDelivers(s, baseUrl, events);
    assert forall i :: 0 <= i < |events| ==> IsAnswer(events[i]);
    DeliveriesComeFromValidAnswers(s, baseUrl, events, AsWritten);
    assert FromValidAnswer(t.delivered[0], s.probes, events);
    var i :| 0 <= i < |events| && events[i].Answer? && events[i].index < |s.probes|
             && ValidListing(events[i].body)
             && t.delivered[0].controller.host == s.probes[events[i].index].controller.host;
  }

  /**
   The scenario of probing `.100`–`.102` where only `.101` answers with a
   listing: in every arrival order of the three answers, the caller is
   called back exactly once, with the controller for `192.168.1.101`.
   */
  lemma OnlyValidHostWins<C>(baseUrl: string, caller: C, events: seq<Event<C>>)
    requires |events| == 3 && FreshAnswers(GetController(NewSession(NewProvider(Some(100), Some(102))), baseUrl, caller), events)
    requires forall i :: 0 <= i < 3 ==> (ValidListing(events[i].body) <==> events[i].index == 1)
    ensures var s := GetController(NewSession(NewProvider(Some(100), Some(102))), baseUrl, caller);
            var t := Run(s, baseUrl, events, AsWritten);
            |t.delivered| == 1 && t.delivered[0].controller.host == ProbeHost(101)
  {
    var s := GetController(NewSession<C>(NewProvider(Some(100), Some(102))), baseUrl, caller);
    assert |s.probes| == 3 && s.delivered == [] && s.provider.looking;
    assert s.probes[1].controller.host == ProbeHost(101);
    assert exists i :: 0 <= i < 3 && events[i].index == 1 by {
      var a, b, c := events[0].index, events[1].index, events[2].index;
      assert a < 3 && b < 3 && c < 3 && a != b && a != c && b != c;
      if a == 1 {
        assert events[0].index == 1;
      } else if b == 1 {
        assert events[1].index == 1;
      } else {
        assert events[2].index == 1;
      }
    }
    SingleValidAnswerWins(s, baseUrl, events, 1);
  }

  /** When every probe answers one caller, every callback made goes to that caller. */
  lemma {:induction false} CallbacksGoToCaller<C>(s: Session<C>, baseUrl: string, events: seq<Event<C>>, caller: C)
    requires forall i :: 0 <= i < |events| ==> IsAnswer(events[i])
    requires forall k :: 0 <= k < |s.probes| ==> s.probes[k].caller == caller
    requires forall j :: 0 <= j < |s.delivered| ==> s.delivered[j].caller == caller
    ensures var t := Run(s, baseUrl, events, AsWritten);
            forall j :: 0 <= j < |t.delivered| ==> t.delivered[j].caller == caller
    decreases |events|
  {
    if |events| > 0 {
      assert IsAnswer(events[0]);
      var s' := ProbeComplete(s, events[0].index, events[0].body);
      assert s' == Step(s, baseUrl, events[0], AsWritten);
      forall i | 0 <= i < |events[1..]| ensures IsAnswer(events[1..][i]) {
        assert events[1..][i] == events[i + 1];
      }
      forall j | 0 <= j < |s'.delivered| ensures s'.delivered[j].caller == caller {
        if j >= |s.delivered| {
          assert s'.delivered[j] == Delivery(s.probes[events[0].index].caller, Receive(s.probes[events[0].index].controller, events[0].body).0);
        } else {
          assert s'.delivered[j] == s'.delivered[..|s.delivered|][j];
        }
      }
      CallbacksGoToCaller(s', baseUrl, events[1..], caller);
      assert Run(s, baseUrl, events, AsWritten) == Run(s', baseUrl, events[1..], AsWritten);
    }
  }

  /** A listing that parses: no warning marker in an empty body. */
  function EmptyListing(): (x: XmlResponse)
    ensures ValidListing(x) && AppsFromXml(x) == Some([])
    ensures x.text == "" && x.appNodes == []
  {
    var x := XmlResponse("", []);
    assert !ContainsText(x.text, WarningMarker) by {
      forall i ensures !OccursAt(x.text, WarningMarker, i) { }
    }
    x
  }

  /**
   As written, a single `getController` call over `.100`–`.101` where both
   hosts answer with a listing calls its callback twice.
   */
  lemma DuplicateWinnerWitness<C>(baseUrl: string, caller: C)
    ensures var s := GetController(NewSession(NewProvider(Some(100), Some(101))), baseUrl, caller);
            |Run(s, baseUrl, [Answer(0, EmptyListing()), Answer(1, EmptyListing())], AsWritten).delivered| == 2
  {
    var s := GetController(NewSession<C>(NewProvider(Some(100), Some(101))), baseUrl, caller);
    var events: seq<Event<C>> := [Answer(0, EmptyListing()), Answer(1, EmptyListing())];
    assert |s.probes| == 2;
    assert events[1..][1..] == [];
    assert ValidAnswers(events) == 2;
    EveryValidAnswerDelivers(s, baseUrl, events);
  }

  /**
   With the corrected completion a provider delivers at most once per
   search, whatever answers arrive in whatever order.
   */
  lemma {:induction false} CorrectedDeliversAtMostOnce<C>(s: Session<C>, baseUrl: string, events: seq<Event<C>>)
    requires forall i :: 0 <= i < |events| ==> IsAnswer(events[i])
    ensures |Run(s, baseUrl, events, Corrected).delivered| <= |s.delivered| + (if s.provider.looking then 1 else 0)
    ensures !s.provider.looking ==>
              Run(s, baseUrl, events, Corrected).provider == s.provider
              && Run(s, baseUrl, events, Corrected).delivered == s.delivered
    decreases |events|
  {
    if |events| > 0 {
      var s' := Step(s, baseUrl, events[0], Corrected);
      forall i | 0 <= i < |events[1..]| ensures IsAnswer(events[1..][i]) {
        assert events[1..][i] == events[i + 1];
      }
      CorrectedDeliversAtMostOnce(s', baseUrl, events[1..]);
    }
  }

  /**
   As written, a search that has already delivered a controller leaves
   nothing cached: the next `getController` probes the whole range again.
   */
  lemma RescanAfterDiscovery<C>(s: Session<C>, baseUrl: string, first: C, second: C, x: XmlResponse)
    requires WellFormed(s) && s.provider.controller.None?
    requires ValidListing(x) && RangeSize(s.provider) > 0
    ensures var s1 := Run(s, baseUrl, [Get(first), Answer(|s.probes|, x)], AsWritten);
            var s2 := GetController(s1, baseUrl, second);
            && |s1.delivered| == |s.delivered| + 1
            && |s2.probes| == |s1.probes| + RangeSize(s.provider)
  {
    var a := GetController(s, baseUrl, first);
    RunGetAnswer(s, baseUrl, first, |s.probes|, x, AsWritten);
    assert Unanswered(a, |s.probes|);
  }

  /**
   With the corrected completion, a search that has delivered a controller
   caches it: the next `getController` is answered at once, without probes.
   */
  lemma CorrectedCachesWinner<C>(s: Session<C>, baseUrl: string, first: C, second: C, x: XmlResponse)
    requires WellFormed(s) && s.provider.controller.None?
    requires ValidListing(x) && RangeSize(s.provider) > 0
    ensures var s1 := Run(s, baseUrl, [Get(first), Answer(|s.probes|, x)], Corrected);
            var s2 := GetController(s1, baseUrl, second);
            && |s1.delivered| == |s.delivered| + 1
            && s2.probes == s1.probes
            && s2.delivered == s1.delivered + [Delivery(second, s1.delivered[|s.delivered|].controller)]
  {
    var a := GetController(s, baseUrl, first);
    RunGetAnswer(s, baseUrl, first, |s.probes|, x, Corrected);
    assert Unanswered(a, |s.probes|);
  }

  /** A run of one `getController` followed by one answer is those two steps. */
  lemma RunGetAnswer<C>(s: Session<C>, baseUrl: string, caller: C, k: nat, x: XmlResponse, build: Build)
    ensures Run(s, baseUrl, [Get(caller), Answer(k, x)], build)
            == Step(GetController(s, baseUrl, caller), baseUrl, Answer(k, x), build)
  {
    var ev: seq<Event<C>> := [Get(caller), Answer(k, x)];
    var a := GetController(s, baseUrl, caller);
    var b := Step(a, baseUrl, Answer(k, x), build);
    assert ev[1..] == [Answer(k, x)];
    assert ev[1..][1..] == [];
    assert Run(b, baseUrl, ev[1..][1..], build) == b;
  }
}

=== FILE: strings.dfy ===
/**
 The JavaScript string operations the remote-control client relies on:
 `indexOf`, `split` on one character, `Array.prototype.join`, the decimal
 rendering of an integer, and the `replace(/.*\./, '')` used to take the
 last dot-separated part of a host name.
 */
module Strings {

  /** True when `w` occurs in `s` starting at position `i`. */
  predicate OccursAt(s: string, w: string, i: int) {
    0 <= i && i + |w| <= |s| && s[i..i + |w|] == w
  }

  /** True when `w` occurs anywhere in `s`. */
  ghost predicate ContainsText(s: string, w: string) {
    exists i :: OccursAt(s, w, i)
  }

  /** `s.indexOf(w, from)`: the first position at or after `from` where `w` occurs, or -1. */
  function IndexFrom(s: string, w: string, from: nat): (r: int)
    requires from <= |s|
    ensures r == -1 || (from <= r && OccursAt(s, w, r))
    ensures forall i :: from <= i && (r < 0 || i < r) ==> !OccursAt(s, w, i)
    decreases |s| - from
  {
    if from + |w| > |s| then -1
    else if s[from..from + |w|] == w then from
    else IndexFrom(s, w, from + 1)
  }

  /** `s.indexOf(w)`. */
  function IndexOf(s: string, w: string): (r: int)
    ensures r == -1 || OccursAt(s, w, r)
    ensures r > -1 <==> ContainsText(s, w)
    ensures forall i :: 0 <= i && (r < 0 || i < r) ==> !OccursAt(s, w, i)
  {
    IndexFrom(s, w, 0)
  }

  /** The first position of character `c` in `s`, or -1. */
  function CharIndex(s: string, c: char): (r: int)
    ensures r == -1 <==> c !in s
    ensures r >= 0 ==> r < |s| && s[r] == c
    ensures forall j :: 0 <= j < |s| && (r < 0 || j < r) ==> s[j] != c
  {
    if |s| == 0 then -1
    else if s[0] == c then 0
    else
      var k := CharIndex(s[1..], c);
      if k < 0 then -1 else k + 1
  }

  /** The last position of character `c` in `s`, or -1. */
  function LastCharIndex(s: string, c: char): (r: int)
    ensures r == -1 <==> c !in s
    ensures r >= 0 ==> r < |s| && s[r] == c
    ensures forall j :: 0 <= j < |s| && r < j ==> s[j] != c
  {
    if |s| == 0 then -1
    else if s[|s| - 1] == c then |s| - 1
    else
      var init := s[..|s| - 1];
      var k := LastCharIndex(init, c);
      assert forall j :: 0 <= j < |init| ==> s[j] == init[j];
      if k >= 0 then k else -1
  }

  /** `parts.join(sep)`: the parts with `sep` between neighbours; "" for no parts. */
  function Join(parts: seq<string>, sep: string): string {
    if |parts| == 0 then ""
    else if |parts| == 1 then parts[0]
    else parts[0] + sep + Join(parts[1..], sep)
  }

  /**
   `s.split(c)` for a one-character separator: the maximal runs between
   occurrences of `c`. There is always at least one part and no part holds
   `c`; `JoinSplit` and `SplitJoin` show that splitting and joining with
   `c` undo each other.
   */
  function Split(s: string, c: char): (parts: seq<string>)
    ensures |parts| >= 1
    decreases |s|
  {
    var i := CharIndex(s, c);
    if i < 0 then [s]
    else
      var rest := Split(s[i + 1..], c);
      var parts := [s[..i]] + rest;
      assert parts[1..] == rest;
      parts
  }

  /** No part of a split holds the separator. */
  lemma {:induction false} SplitPartsFree(s: string, c: char)
    ensures forall i :: 0 <= i < |Split(s, c)| ==> c !in Split(s, c)[i]
    decreases |s|
  {
    var i := CharIndex(s, c);
    if i >= 0 {
      SplitAtFirst(s, c);
      SplitPartsFree(s[i + 1..], c);
      BeforeFirstFree(s, c);
    }
  }

  /** The text before the first `c` holds no `c`. */
  lemma BeforeFirstFree(s: string, c: char)
    requires c in s
    ensures c !in s[..CharIndex(s, c)]
  {
    var i := CharIndex(s, c);
    assert forall k :: 0 <= k < i ==> s[..i][k] == s[k];
  }

  /** Joining the parts of a split with the separator gives the string back. */
  lemma {:induction false} JoinSplit(s: string, c: char)
    ensures Join(Split(s, c), [c]) == s
    decreases |s|
  {
    var i := CharIndex(s, c);
    if i >= 0 {
      SplitAtFirst(s, c);
      SliceAround(s, i);
      var front, back := s[..i], s[i + 1..];
      JoinCons(front, Split(back, c), [c]);
      JoinSplit(back, c);
    }
  }

  /** Where `c` occurs, the split is the part before its first occurrence, then the split of the rest. */
  lemma SplitAtFirst(s: string, c: char)
    requires c in s
    ensures var i := CharIndex(s, c); Split(s, c) == [s[..i]] + Split(s[i + 1..], c)
  {
  }

  /** A split has two or more parts exactly when the separator occurs. */
  lemma SplitCount(s: string, c: char)
    ensures |Split(s, c)| >= 2 <==> c in s
  {
    if c in s {
      SplitAtFirst(s, c);
    }
  }

  /** A string is the text before position `i`, the character there, and the text after. */
  lemma SliceAround(s: string, i: int)
    requires 0 <= i < |s|
    ensures s == s[..i] + [s[i]] + s[i + 1..]
  {
  }

  /** Joining a non-empty list after one more part puts the separator between them. */
  lemma JoinCons(first: string, rest: seq<string>, sep: string)
    requires |rest| >= 1
    ensures Join([first] + rest, sep) == first + sep + Join(rest, sep)
  {
    assert ([first] + rest)[1..] == rest;
  }

  /** The first part of a split is the longest prefix free of `c`. */
  lemma SplitFirstPart(s: string, c: char)
    ensures var p := Split(s, c)[0];
            && |p| <= |s| && s[..|p|] == p && c !in p
            && (|p| == |s| || s[|p|] == c)
            && (|p| < |s| <==> c in s)
  {
    var i := CharIndex(s, c);
    if i >= 0 {
      SplitAtFirst(s, c);
      assert Split(s, c)[0] == s[..i];
    }
  }

  /**
   When `c` occurs, the second part of the split starts right after its
   first occurrence and runs up to the next `c` or the end.
   */
  lemma SplitSecondPart(s: string, c: char, i: int, v: string)
    requires c in s && i == CharIndex(s, c) && v == Split(s, c)[1]
    ensures c !in v && i + 1 + |v| <= |s| && s[i + 1..i + 1 + |v|] == v
    ensures i + 1 + |v| == |s| || s[i + 1 + |v|] == c
  {
    var rest := s[i + 1..];
    var tail := Split(rest, c);
    SplitAtFirst(s, c);
    assert v == tail[0];
    SplitFirstPart(rest, c);
    assert |v| <= |rest| && rest[..|v|] == v && c !in v;
    assert s[i + 1..i + 1 + |v|] == rest[..|v|];
    if |v| < |rest| {
      assert s[i + 1 + |v|] == rest[|v|] == c;
    }
  }

  /** In `a + [c] + b` with `c` not in `a`, the first `c` is the one after `a`. */
  lemma {:induction false} CharIndexAfterFree(a: string, c: char, b: string)
    requires c !in a
    ensures CharIndex(a + [c] + b, c) == |a|
  {
    if |a| > 0 {
      assert (a + [c] + b)[1..] == a[1..] + [c] + b;
      CharIndexAfterFree(a[1..], c, b);
    }
  }

  /** In `a + [c] + b` with `c` not in `b`, the last `c` is the one after `a`. */
  lemma {:induction false} LastCharIndexBeforeFree(a: string, c: char, b: string)
    requires c !in b
    ensures LastCharIndex(a + [c] + b, c) == |a|
    decreases |b|
  {
    var s := a + [c] + b;
    if |b| > 0 {
      assert s[..|s| - 1] == a + [c] + b[..|b| - 1];
      assert s[|s| - 1] == b[|b| - 1];
      LastCharIndexBeforeFree(a, c, b[..|b| - 1]);
    }
  }

  /** Splitting the join of separator-free parts gives the parts back. */
  lemma {:induction false} SplitJoin(parts: seq<string>, c: char)
    requires |parts| >= 1
    requires forall i :: 0 <= i < |parts| ==> c !in parts[i]
    ensures Split(Join(parts, [c]), c) == parts
    decreases |parts|
  {
    if |parts| == 1 {
      assert Join(parts, [c]) == parts[0];
    } else {
      var tail := parts[1..];
      var rest := Join(tail, [c]);
      var s := Join(parts, [c]);
      assert s == parts[0] + [c] + rest;
      CharIndexAfterFree(parts[0], c, rest);
      var i := |parts[0]|;
      assert s[..i] == parts[0];
      assert s[i + 1..] == rest;
      assert Split(s, c) == [parts[0]] + Split(rest, c);
      assert forall j :: 0 <= j < |tail| ==> tail[j] == parts[j + 1];
      SplitJoin(tail, c);
      assert parts == [parts[0]] + tail;
    }
  }

  /** The character of one decimal digit. */
  function DigitChar(d: nat): (c: char)
    requires d < 10
    ensures '0' <= c <= '9'
  {
    "0123456789"[d]
  }

  /** The value of one decimal digit character. */
  function DigitValue(c: char): (d: nat)
    requires '0' <= c <= '9'
    ensures d < 10
  {
    (c as int - '0' as int) as nat
  }

  predicate IsDigits(s: string) {
    |s| > 0 && forall i :: 0 <= i < |s| ==> '0' <= s[i] <= '9'
  }

  /** The decimal digits of a natural number, most significant first, without leading zeros. */
  function Digits(n: nat): (s: string)
    ensures IsDigits(s)
    ensures |s| > 1 ==> s[0] != '0'
  {
    if n < 10 then [DigitChar(n)] else Digits(n / 10) + [DigitChar(n % 10)]
  }

  /** The number a non-empty string of digits denotes. */
  function DigitsValue(s: string): nat
    requires IsDigits(s)
  {
    if |s| == 1 then DigitValue(s[0])
    else DigitsValue(s[..|s| - 1]) * 10 + DigitValue(s[|s| - 1])
  }

  /** Reading back the digits of `n` gives `n`. */
  lemma {:induction false} DigitsRoundTrip(n: nat)
    ensures DigitsValue(Digits(n)) == n
  {
    if n >= 10 {
      var s := Digits(n);
      assert s[..|s| - 1] == Digits(n / 10);
      DigitsRoundTrip(n / 10);
    }
  }

  /** JavaScript's `String(n)` for an integer: optional `-` then the digits. */
  function Decimal(n: int): (s: string)
    ensures n >= 0 ==> IsDigits(s)
    ensures n < 0 ==> |s| > 1 && s[0] == '-' && IsDigits(s[1..])
  {
    if n < 0 then "-" + Digits(-n) else Digits(n)
  }

  /** Parses an optionally signed decimal; the inverse of `Decimal`. */
  function ParseDecimal(s: string): (r: int)
    requires IsDigits(s) || (|s| > 1 && s[0] == '-' && IsDigits(s[1..]))
  {
    if s[0] == '-' then 0 - DigitsValue(s[1..]) else DigitsValue(s)
  }

  lemma DecimalRoundTrip(n: int)
    ensures ParseDecimal(Decimal(n)) == n
  {
    if n < 0 {
      NegativeDecimal(n);
    } else {
      DigitsRoundTrip(n);
    }
  }

  lemma NegativeDecimal(n: int)
    requires n < 0
    ensures ParseDecimal(Decimal(n)) == n
  {
    var m := -n;
    var t := Decimal(n);
    NegativeDecimalText(n);
    assert ParseDecimal(t) == 0 - DigitsValue(t[1..]);
    DigitsRoundTrip(m);
    assert DigitsValue(t[1..]) == m;
  }

  /** A negative number is written as `-` and the digits of its magnitude. */
  lemma NegativeDecimalText(n: int)
    requires n < 0
    ensures Decimal(n)[0] == '-' && Decimal(n)[1..] == Digits(-n)
  {
    assert Decimal(n) == "-" + Digits(-n);
  }

  /** The characters JavaScript regular expressions treat as line terminators. */
  predicate IsLineTerminator(c: char) {
    c == '\n' || c == '\r' || c == '\U{2028}' || c == '\U{2029}'
  }

  /** The first line-terminator position in `s`, or |s|. */
  function LineEnd(s: string): (k: nat)
    ensures k <= |s|
    ensures forall i :: 0 <= i < k ==> !IsLineTerminator(s[i])
    ensures k < |s| ==> IsLineTerminator(s[k])
  {
    if |s| == 0 || IsLineTerminator(s[0]) then 0 else 1 + LineEnd(s[1..])
  }

  /**
   `s.replace(/.*\./, '')`: the first match of "any non-terminator run then
   a dot" is removed. The match starts at the beginning of the first line
   holding a dot and, being greedy, ends at that line's last dot.
   */
  function StripThroughLastDot(s: string): (r: string)
    ensures '.' !in s ==> r == s
    ensures |r| <= |s|
    decreases |s|
  {
    var k := LineEnd(s);
    var line := s[..k];
    var dot := LastCharIndex(line, '.');
    if dot >= 0 then
      assert s[k..] == s[dot + 1..][k - dot - 1..];
      line[dot + 1..] + s[k..]
    else if k == |s| then s
    else
      assert s == s[..k + 1] + s[k + 1..];
      s[..k + 1] + StripThroughLastDot(s[k + 1..])
  }

  /**
   On a one-line host name the replacement keeps the longest dot-free
   suffix: everything after the last dot, or the whole name when it has none.
   */
  lemma StripThroughLastDotOneLine(s: string)
    requires forall i :: 0 <= i < |s| ==> !IsLineTerminator(s[i])
    ensures '.' !in StripThroughLastDot(s)
    ensures StripThroughLastDot(s) == s[|s| - |StripThroughLastDot(s)|..]
    ensures |StripThroughLastDot(s)| < |s| ==> s[|s| - |StripThroughLastDot(s)| - 1] == '.'
  {
    assert LineEnd(s) == |s|;
    assert s[..|s|] == s;
  }
}

=== FILE: wrappers.dfy ===
/** Optional values: JavaScript's `null`/`undefined` next to a real value. */
module Wrappers {

  datatype Option<+T> = None | Some(value: T) {

    /** The value, or the given default when absent. */
    function GetOr(default: T): T {
      match this
      case Some(v) => v
      case None => default
    }
  }
}
